=== FILE: README.md ===
# Roaming CDR service — a Dafny model of its core

The roaming CDR service synthesises call detail records (CDRs) for a fixed
directory of subscribers. It stores them and answers usage-report (UDR)
queries: per subscriber and time window, the total seconds of incoming and
outgoing calls, rendered as `HH:MM:SS`. This project models four parts of the
service and proves properties about them:

- **The current call-record synthesizer** (`CDRServiceImpl.generateCDRs`, `generateCDR`, `isBusy`, `saveCDRBatch`, `getCDRsForSubscriber`).
  - A loop walks a time cursor over the window. Each iteration:
    - moves the cursor by at least one second;
    - draws a caller and then resamples the receiver until it differs from the caller;
    - drops the attempt when either party is still busy;
    - otherwise emits a record and marks both parties busy until the call ends.
  - Records are buffered and saved in batches of 100, with a final save of the remainder.
  - Module `Generator` (`generator.dfy`), with `Schedule` (`schedule.dfy`) for the busy map.
- **The older synthesizer** (`CDRService.generateCDRs`), the one the application runs at start-up. It differs from the current one:
  - No minimum-two check.
  - Caller and receiver drawn independently, so they may coincide.
  - The cursor step may be zero.
  - Records saved one by one, with a flush on every hundredth and a final flush for the remainder.
  - Module `LegacyGenerator` (`legacy_generator.dfy`).
- **Usage aggregation** (`UDRController.getUDR`, `getAllUDRs`, `createUDR`, `getTotalCallDuration`). It works over pure filters that stand for the three repository finders.
  - Modules `Usage` (`usage.dfy`), `Repository` (`repository.dfy`) and `Records` (`records.dfy`).
- **Duration rendering** (`CallDuration.formatDuration`).
  - Java's truncating `long` division and remainder, and `%02d`, are written out.
  - A parse back from the text shows that the rendering loses nothing.
  - Module `Durations` (`durations.dfy`).

## How randomness, time and the calendar are represented

- Timestamps are whole seconds on one time line.
- Every random value is an explicit draw:
  - `Generator.Draw` holds what one iteration of the current loop may consume: the in-body step, the caller index, the receiver indices in resampling order, the duration, the call-type coin and the `for` step.
  - `LegacyGenerator.LegacyDraw` does the same for the older loop.
  - The exponential draws are non-negative whole seconds.
- The window bounds of a generation run are parameters; they stand for "a year ago" and "now".
- `Usage.Calendar` is a parameter. It supplies:
  - `parseMonth`, which says whether `month + "-01T00:00:00"` parses and to which year and month;
  - `firstOfMonth`;
  - the default one-year window.

## Behaviour the model makes explicit

These consequences of the code are stated as lemmas:

- A month query also counts a call that starts exactly at midnight on the first of the next month, because the repository's `...Between` queries admit both bounds. Such a call is reported for its caller in both months (`Usage.MonthBoundaryCountedInBothMonths`).
- A call may last zero seconds, because the duration draw is truncated to whole seconds and may be 0 (`Generator.ZeroSecondCallEmitted`).
- The older synthesizer, the one the application runs, draws caller and receiver independently, so a subscriber may call itself (`LegacyGenerator.SingleSubscriberCallsItself`). Such a call is reported twice for that subscriber, once as caller and once as receiver (`Repository.SelfCallListedTwice`, `Usage.SelfCallCountedTwice`).
- The current synthesizer evaluates its loop guard before the in-body step, so its last record may start at or after the window end (`Generator.RecordMayStartAfterWindowEnd`). The older one attempts a call only at a cursor that passed the guard, so every record it saves starts strictly before the window end (`LegacyGenerator.GenerateCdrsLegacy`).
- The receiver resample compares numbers, not list positions. When every subscriber has the same number, no draw ends it, even with two or more subscribers (`Generator.SameNumbersNeverResample`).
- `getAllUDRs` groups by the stored caller field only and counts each record by its own type. An incoming-typed call from `a` to `b` therefore counts as `a`'s incoming time and gives `b` no entry (`Usage.GetAllUdrsGroupsByCaller`).
- A negative total, which only a call ending before it starts could produce, is rendered field by field with each minus sign kept and no padding (`Durations.FormatDurationExampleNegative`).

## Model

Source paths are relative to the repository root.

| member | source | states |
|---|---|---|
| `Durations.Fields` | src/main/java/com/example/roaming_cdr_service/model/CallDuration.java:33-36 | hours·3600 + minutes·60 + seconds recombine to the total for every total. For a non-negative total: hours are `total / 3600`, not wrapped at 24; minutes and seconds lie in 0..59. A negative total gives the negated fields of its absolute value, as Java's truncating `/` and `%` do. |
| `Durations.Pad2` | src/main/java/com/example/roaming_cdr_service/model/CallDuration.java:37 | `%02d` of one field: at least two characters, exactly two for 0..99, never a colon. A non-negative field is all digits; a negative one is a minus sign followed by digits. The text starts with '0' iff the value is a single digit, and the digits after a minus sign never start with '0'. With `Pad2RoundTrip` this fixes the text, given ASCII digits (see `Durations.Pad2` under Left out). |
| `Durations.Pad2RoundTrip` | src/main/java/com/example/roaming_cdr_service/model/CallDuration.java:37 | Every padded field, negative ones included, reads back as the number it was printed from. |
| `Durations.FormatDuration` | src/main/java/com/example/roaming_cdr_service/model/CallDuration.java:33-38 | The rendering is 8 characters long for any total from 0 up to 99:59:59. |
| `Durations.FormatDurationParts` | src/main/java/com/example/roaming_cdr_service/model/CallDuration.java:37 | The rendering splits at its colons into exactly the three padded fields. |
| `Durations.FormatRoundTrip` | src/main/java/com/example/roaming_cdr_service/model/CallDuration.java:33-38 | Round trip: parsing the three fields back and recombining them gives the original total, for every total. |
| `Durations.FormatDurationFields` | src/main/java/com/example/roaming_cdr_service/model/CallDuration.java:34-37 | For a non-negative total: the text has three colon-separated fields, each made of at least two decimal digits. A field starts with '0' iff it is exactly two characters long and its value is below 10. The fields read back as `total / 3600` (unbounded hours), `total % 3600 / 60` and `total % 60`. |
| `Durations.FormatDurationExample3661` | src/test/java/com/example/roaming_cdr_service/model/CallDurationTest.java:19-25 | 3661 seconds render as `01:01:01`. |
| `Durations.FormatDurationExampleHour` | src/test/java/com/example/roaming_cdr_service/model/UDRTest.java:14-18 | 3600 seconds render as `01:00:00` and 1800 as `00:30:00`. |
| `Durations.FormatDurationExampleZero` | src/main/java/com/example/roaming_cdr_service/model/CallDuration.java:33-37 | A total of zero renders as `00:00:00`, the text of a report direction without calls. |
| `Durations.FormatDurationExampleUnwrapped` | src/main/java/com/example/roaming_cdr_service/model/CallDuration.java:34 | 90000 seconds render as `25:00:00`: the hour field is not reduced modulo 24. |
| `Durations.FormatDurationExampleNegative` | src/main/java/com/example/roaming_cdr_service/model/CallDuration.java:34-37 | -3725 seconds render as `-1:-2:-5`: each field takes the sign of the total, and `%02d` pads none of them. |
| `Durations.CallDurationOf` | src/main/java/com/example/roaming_cdr_service/model/CallDuration.java:23-25 | The text a `CallDuration` built from a total carries reads back as exactly that total. |
| `Repository.Select` | src/main/java/com/example/roaming_cdr_service/repository/CDRRepository.java:16-22 | A derived finder returns exactly the stored records satisfying its condition, and no more records than the store holds. |
| `Repository.FindByCaller` | src/main/java/com/example/roaming_cdr_service/repository/CDRRepository.java:16 | A record is returned iff it is stored, its caller is the number, and its start lies in the window, both bounds included. |
| `Repository.FindByReceiver` | src/main/java/com/example/roaming_cdr_service/repository/CDRRepository.java:19 | A record is returned iff it is stored, its receiver is the number, and its start lies in the window, both bounds included. |
| `Repository.FindInWindow` | src/main/java/com/example/roaming_cdr_service/repository/CDRRepository.java:22 | A record is returned iff it is stored and its start lies in the window, both bounds included. |
| `Repository.CdrsForSubscriber` | src/main/java/com/example/roaming_cdr_service/service/impl/CDRServiceImpl.java:45-52 | A record is returned iff it is stored, involves the number on either side, and started in the window. The result is the caller hits followed by the receiver hits, and its length is the sum of theirs. |
| `Repository.SelfCallListedTwice` | src/main/java/com/example/roaming_cdr_service/service/impl/CDRServiceImpl.java:45-51 | A stored call from a number to itself appears twice in that number's list. |
| `Schedule.IsBusy` | src/main/java/com/example/roaming_cdr_service/service/impl/CDRServiceImpl.java:152-155 | A subscriber is busy exactly at times strictly before the end stored for it; one without an entry is never busy. Partner `Schedule.OccupyBusyUntilEnd` states what admitting a call does to it. |
| `Schedule.OccupyBusyUntilEnd` | src/main/java/com/example/roaming_cdr_service/service/impl/CDRServiceImpl.java:121-122 | After a call is admitted, each party is busy exactly until the call's end. Every other subscriber is busy exactly when it was before, and a subscriber without an entry is free. |
| `Schedule.Occupy` | src/main/java/com/example/roaming_cdr_service/service/impl/CDRServiceImpl.java:121-122 | After a call, both parties map to its end time, and no other entry of the busy map changes. |
| `Schedule.AdmitKeepsNoOverlap` | src/main/java/com/example/roaming_cdr_service/service/impl/CDRServiceImpl.java:114-122 | A call is admitted only when neither party is busy at its start. Admitting it keeps the log free of overlaps: a later call sharing a party starts no earlier than the earlier one ends. The busy map still covers every logged call. |
| `Generator.PickReceiver` | src/main/java/com/example/roaming_cdr_service/service/impl/CDRServiceImpl.java:108-112 | The `do … while` resample yields a subscriber whose number differs from the caller's. It is the first drawn receiver with that property; every earlier draw had the caller's number. |
| `Generator.GenerateCdr` | src/main/java/com/example/roaming_cdr_service/service/impl/CDRServiceImpl.java:107-132 | A record is emitted iff neither party is busy at the cursor. A dropped attempt leaves the busy map unchanged. An emitted record has: the drawn caller and the resampled receiver, which differ; start = cursor; length = drawn duration ≥ 0; type `01` or `02`. Both parties then map to its end, and every other entry is unchanged. |
| `Generator.SaveBatch` | src/main/java/com/example/roaming_cdr_service/service/impl/CDRServiceImpl.java:137-143 | A non-empty buffer is appended as one batch; an empty buffer writes nothing. Either way the buffer ends empty, earlier batches are untouched, and no record is lost. |
| `Generator.Iterate` | src/main/java/com/example/roaming_cdr_service/service/impl/CDRServiceImpl.java:87-100 | One iteration of the loop moves the cursor forward by at least one second, which is what makes the loop end. Its partners state the rest: `IterateEmits` (the record appended), `IterateKeepsBatches` (batching) and `IterateKeepsConsistent` (ordering, no overlap). |
| `Generator.IterateKeepsBatches` | src/main/java/com/example/roaming_cdr_service/service/impl/CDRServiceImpl.java:93-99 | Given a buffer below 100 and full saved batches, one iteration keeps the buffer below 100, and every batch saved, including a new one, holds exactly 100 records. |
| `Generator.IterateEmits` | src/main/java/com/example/roaming_cdr_service/service/impl/CDRServiceImpl.java:87-99 | One iteration appends exactly its attempt's record, if any, to the emitted records, whether it ends up buffered or saved. The cursor moves by the in-body step (at least 1) plus the `for` step. |
| `Generator.IterateKeepsConsistent` | src/main/java/com/example/roaming_cdr_service/service/impl/CDRServiceImpl.java:87-100 | One iteration keeps: the buffer below 100; every saved batch full; records well formed, starting after the window start and no later than the cursor, in strictly increasing order; no overlaps. The cursor grows by at least one second, and at most one record is added, at the end. |
| `Generator.FinalSaveKeepsBatches` | src/main/java/com/example/roaming_cdr_service/service/impl/CDRServiceImpl.java:101 | After the final save, the batches hold every emitted record in order. No batch is empty or above 100, and all but the last are full. |
| `Generator.IterateFollowsTrace` | src/main/java/com/example/roaming_cdr_service/service/impl/CDRServiceImpl.java:87-100 | Against the unbuffered reference trace of the attempts, one iteration moves the trace's next record into the emitted ones. Nothing is reordered, lost or invented. |
| `Generator.Run` | src/main/java/com/example/roaming_cdr_service/service/impl/CDRServiceImpl.java:87-100 | The loop as a reference run. Every iteration moves the cursor by at least one second, so the run stops at the window end unless the draws run out first. It makes at most one iteration per second left in the window, and at least one when the cursor starts inside the window with a draw left. |
| `Generator.RunFollowsTrace` | src/main/java/com/example/roaming_cdr_service/service/impl/CDRServiceImpl.java:87-100 | Over any number of iterations, the emitted records are those the run started with followed by the reference trace from its cursor and busy map: nothing is reordered, lost or invented. |
| `Generator.RunKeepsConsistent` | src/main/java/com/example/roaming_cdr_service/service/impl/CDRServiceImpl.java:87-100 | Over any number of iterations the loop invariant holds: buffer below 100, every saved batch full, records well formed, ordered and free of overlaps, busy map covering every record. At most one record is added per iteration. |
| `Generator.RunGenerated` | src/main/java/com/example/roaming_cdr_service/service/impl/CDRServiceImpl.java:87-101 | Running the loop from the window start with an empty busy map, then saving the remainder, yields a run with all guarantees of a successful `generateCDRs`. |
| `Generator.GenerateCdrs` | src/main/java/com/example/roaming_cdr_service/service/impl/CDRServiceImpl.java:72-102 | No subscribers fails with the "empty" error and one subscriber with the "insufficient" error; in both cases nothing is saved. Otherwise the loop reaches the window end after at most one iteration per second of the window. The batches then join to exactly the attempts' trace: ordered, well formed and overlap-free, at most one record per iteration. When records exist, every batch but the last holds exactly 100 records and the last holds 1 to 100; without records nothing is saved. |
| `Generator.RecordMayStartAfterWindowEnd` | src/main/java/com/example/roaming_cdr_service/service/impl/CDRServiceImpl.java:87-89 | In a window from 0 to 1, the cursor passes the guard at 0 and a 5-second step follows. Both the reference trace and the run of the loop then emit exactly one call, starting at 5, after the window end. |
| `Generator.ZeroSecondCallEmitted` | src/main/java/com/example/roaming_cdr_service/service/impl/CDRServiceImpl.java:114-119 | A zero duration draw still emits a call when both parties are free. The call starts and ends at the same second and is well formed. |
| `Generator.SameNumbersNeverResample` | src/main/java/com/example/roaming_cdr_service/service/impl/CDRServiceImpl.java:110-112 | When all subscribers share one number, no draw can end the receiver resample. |
| `LegacyGenerator.LegacyAttempt` | src/main/java/com/example/roaming_cdr_service/service/CDRService.java:72-97 | A record is saved iff neither independently drawn party is busy at the cursor; the two may be the same subscriber. Its start is the cursor, its length is the drawn duration, and its type is `01` or `02`. Both parties then map to its end, and no other entry changes. |
| `LegacyGenerator.LegacyIterate` | src/main/java/com/example/roaming_cdr_service/service/CDRService.java:67-103 | One iteration saves at most one record, appended after those already saved. The count grows by exactly the records saved. A flush is recorded, at the new count, exactly when a save makes the count a multiple of 100. The cursor moves by the step alone, which may be zero. |
| `LegacyGenerator.LegacyIterateKeepsConsistent` | src/main/java/com/example/roaming_cdr_service/service/CDRService.java:67-102 | An iteration whose cursor passed the loop guard keeps the following, and moves the cursor by exactly the (possibly zero) step: count = number saved; one flush at each multiple of 100 so far; saved records well formed, in non-decreasing start order, starting no earlier than the window start, no later than the cursor and strictly before the window end, free of overlaps. |
| `LegacyGenerator.LegacyIterateFollowsTrace` | src/main/java/com/example/roaming_cdr_service/service/CDRService.java:67-103 | Against the reference trace of the attempts, one iteration moves the trace's next record into the saved ones. |
| `LegacyGenerator.FinalFlush` | src/main/java/com/example/roaming_cdr_service/service/CDRService.java:100-108 | With the final flush added exactly when the count is not a multiple of 100, there are ⌈count/100⌉ flushes, at 100, 200, … and finally at the count. |
| `LegacyGenerator.LegacyLoopStep` | src/main/java/com/example/roaming_cdr_service/service/CDRService.java:67-103 | One more iteration inside the window with a draw left keeps the loop invariant. |
| `LegacyGenerator.LegacyLoopDone` | src/main/java/com/example/roaming_cdr_service/service/CDRService.java:67-108 | Leaving the loop, at the window end or with the draws used up, gives a run that keeps every guarantee of `GenerateCdrsLegacy`. The final flush is taken only by a completed run. |
| `LegacyGenerator.GenerateCdrsLegacy` | src/main/java/com/example/roaming_cdr_service/service/CDRService.java:51-109 | It fails iff there are no subscribers and the window is non-empty, and then with the "empty" error before any save. Otherwise: count = number of records saved, and they are exactly the attempts' trace, ordered and overlap-free, each starting in the window strictly before its end. A flush comes after every hundredth save, plus one final flush iff the count is not a multiple of 100. A run completes iff the cursor reached the window end; when every step is zero it cannot complete. |
| `LegacyGenerator.SingleSubscriberCallsItself` | src/main/java/com/example/roaming_cdr_service/service/CDRService.java:72-73 | With a single subscriber, the call it places to itself is still saved and counted. |
| `Usage.NextMonth` | src/main/java/com/example/roaming_cdr_service/controller/UDRController.java:75 | The next month is a valid month one month-index later; December rolls into January of the next year. |
| `Usage.QueryWindow` | src/main/java/com/example/roaming_cdr_service/controller/UDRController.java:72-82 | Without a month, the window is the year ending now. With a month, it fails iff the month text does not parse; otherwise it runs from the first instant of that month to the first instant of the next. |
| `Usage.TotalCallDuration` | src/main/java/com/example/roaming_cdr_service/controller/UDRController.java:140-145 | The total is never negative when no call ends before it starts, and zero when no call has the type. |
| `Usage.TotalCallDurationAppend` | src/main/java/com/example/roaming_cdr_service/controller/UDRController.java:140-145 | The total over a concatenation is the sum of the totals over the parts. |
| `Usage.TotalCallDurationSingle` | src/main/java/com/example/roaming_cdr_service/controller/UDRController.java:141-143 | One call contributes its length when its type matches and nothing otherwise. |
| `Usage.CreateUdr` | src/main/java/com/example/roaming_cdr_service/controller/UDRController.java:132-138 | The report names the given number. Its incoming text reads back as the `02` total and its outgoing text as the `01` total. |
| `Usage.CreateUdrIgnoresOtherTypes` | src/main/java/com/example/roaming_cdr_service/controller/UDRController.java:135-136 | A record of any other type counts toward neither direction: removing it leaves the report unchanged. |
| `Usage.GetUdr` | src/main/java/com/example/roaming_cdr_service/controller/UDRController.java:61-94 | It fails with the invalid-month error iff the window cannot be formed, whatever the store holds, i.e. before any query. Otherwise it fails with not-found iff no stored call in the window involves the number. A report names the number and totals the caller hits followed by the receiver hits. |
| `Usage.GetUdrSumsBothSides` | src/main/java/com/example/roaming_cdr_service/controller/UDRController.java:84-86 | Whenever the window forms, the total of either type over the subscriber's calls is the caller-side total plus the receiver-side total. |
| `Usage.GetUdrExample` | src/main/java/com/example/roaming_cdr_service/controller/UDRController.java:84-93 | A subscriber that placed a 300-second outgoing call and received a 120-second incoming one gets 300 outgoing and 120 incoming seconds. |
| `Usage.SelfCallCountedTwice` | src/main/java/com/example/roaming_cdr_service/controller/UDRController.java:84-86 | A self-call of length L is reported as 2·L outgoing seconds. |
| `Usage.GroupOf` | src/main/java/com/example/roaming_cdr_service/controller/UDRController.java:128 | A caller's group holds exactly the records that caller placed. |
| `Usage.GroupReport` | src/main/java/com/example/roaming_cdr_service/controller/UDRController.java:128-129 | Naming a group's report after its first record's caller is the same as naming it after the group key. |
| `Usage.ReportsByCaller` | src/main/java/com/example/roaming_cdr_service/controller/UDRController.java:126-129 | Every key is a caller number of the records, and its report is built from that caller's group only. |
| `Usage.CallersInWindow` | src/main/java/com/example/roaming_cdr_service/controller/UDRController.java:126 | The caller numbers of the window query are the callers of the stored calls that started in the window. |
| `Usage.GetAllUdrs` | src/main/java/com/example/roaming_cdr_service/controller/UDRController.java:111-130 | It fails iff the month text does not parse, and only with the invalid-month error. Otherwise the keys are exactly the distinct callers of the stored calls started in the month. Each report names its key and totals that caller's group only. |
| `Usage.CountedInMonth` | src/main/java/com/example/roaming_cdr_service/controller/UDRController.java:119-129 | A stored call whose start lies in a parsed month's window, both bounds included, gives its caller an entry in that month's report and belongs to the group that entry totals. |
| `Usage.MonthBoundaryCountedInBothMonths` | src/main/java/com/example/roaming_cdr_service/controller/UDRController.java:119-129 | A call starting exactly at the first instant of the next month is reported for its caller in both months. |
| `Usage.GetAllUdrsGroupsByCaller` | src/main/java/com/example/roaming_cdr_service/controller/UDRController.java:126-129 | An incoming-typed call from `a` to `b` yields an entry for `a` only, with 60 incoming and 0 outgoing seconds. |

## Left out

- `CDRController.generateCDRReport` (CSV files, UUIDs, the filesystem), `GlobalExceptionHandler`, `SwaggerConfig` and the application boot: file I/O, HTTP status mapping and framework wiring, with no logic of the core.
- `initDatabase` seeding and the JPA repositories. Persistence is an append-only sequence of records, and the finders are pure filters. `saveAll`, `save`, `flush` and `@Transactional` are not modelled beyond:
  - the batches passed to `saveAll`;
  - the counts at which `flush` is called.
- Record ids (`@GeneratedValue`) and Lombok's generated `equals`, `hashCode` and `toString` are left out, as is the field-by-field `toString` that the UDR test compares.
- UDR construction: `createUDR` calls `new UDR()` and setters, while `UDR.java` declares `@Data @Builder` without a no-argument constructor. The model builds the report from its three fields directly.
- `ThreadLocalRandom` and `getExponentialRandom` (a double logarithm and a truncating cast) are replaced by explicit draws of non-negative whole seconds, indices and booleans. Their distributions are not modelled.
- `LocalDateTime.now`, `minusYears`, `plusMonths` and `LocalDateTime.parse` are left out:
  - the window bounds of a run are parameters;
  - month parsing and the first instant of a month come from `Usage.Calendar`;
  - only the month-to-month step (`Usage.NextMonth`) is written out.
- Java `long` overflow: totals and timestamps are unbounded integers, so sums that would wrap at 64 bits are not modelled.
- Result order of the repository finders: the database does not promise one, and the model returns records in store order. The membership, concatenation and total properties do not depend on it.
- `Generator.GenerateCdrs`: the model requires at least one draw per second of the window, which is the most a run can use. It also requires every draw's receiver resample to end (`Generator.ValidDraw`). The source loops forever when every subscriber has the same number (`Generator.SameNumbersNeverResample`); the model does not follow it into that loop.
- `LegacyGenerator.GenerateCdrsLegacy`: a zero step can repeat forever, so the finite draw sequence is the fuel of the loop. When it runs out before the window end, the run is reported as not completed and the final flush is not taken. The source would keep drawing.
- `Durations.Pad2`: `%02d` in `String.format` pads with the zero digit of the default format locale. The model assumes a locale whose digits are the ASCII '0' to '9', and writes the minus sign as the ASCII hyphen-minus.
- Idempotence or repeatability of queries is not stated separately: every operation of the model is a pure function of the store and its parameters.

=== FILE: durations.dfy ===
/**
 Rendering of a number of call seconds as the `HH:MM:SS` text a usage report
 carries, together with the inverse parse the model uses to state that the
 rendering loses nothing.

 The source computes the three fields with Java's `long` division and
 remainder, which round toward zero, and prints each with `%02d`; both are
 written out here so that the rendering of a negative total is the one the
 source produces too.
 */
module Durations {
  import opened Wrappers

  /** Java's `/` on `long`: the quotient rounded toward zero. */
  function Quot(a: int, b: int): int
    requires b > 0
  {
    if a >= 0 then a / b else -((-a) / b)
  }

  /** Java's `%` on `long`: the remainder takes the sign of the dividend. */
  function Rem(a: int, b: int): int
    requires b > 0
  {
    a - b * Quot(a, b)
  }

  /** Hours, minutes and seconds of a total, as the source computes them. */
  datatype Hms = Hms(hours: int, minutes: int, seconds: int)

  /**
   The fields of `totalSeconds`: they recombine to the total, hours are not
   wrapped at 24, and a negative total gives the negated fields of its
   absolute value.
   */
  function Fields(totalSeconds: int): (f: Hms)
    ensures f.hours * 3600 + f.minutes * 60 + f.seconds == totalSeconds
    ensures totalSeconds >= 0 ==>
      && f.hours == totalSeconds / 3600
      && f.minutes == totalSeconds % 3600 / 60
      && f.seconds == totalSeconds % 60
      && 0 <= f.minutes < 60
      && 0 <= f.seconds < 60
    ensures totalSeconds < 0 ==>
      var a := -totalSeconds;
      && f.hours == -(a / 3600)
      && f.minutes == -(a % 3600 / 60)
      && f.seconds == -(a % 60)
  {
    var f := Hms(
      Quot(totalSeconds, 3600),
      Quot(Rem(totalSeconds, 3600), 60),
      Rem(totalSeconds, 60));
    FieldsArithmetic(totalSeconds);
    f
  }

  /** Quotient and remainder by 60 are the only such pair. */
  lemma Mod60(a: int, q: int, r: int)
    requires a == 60 * q + r && 0 <= r < 60
    ensures a / 60 == q && a % 60 == r
  {
  }

  lemma RemainderOfHour(a: int)
    requires a >= 0
    ensures a % 3600 % 60 == a % 60
    ensures a / 3600 * 3600 + a % 3600 / 60 * 60 + a % 60 == a
  {
    var q := a / 3600;
    var r := a % 3600;
    assert a == 3600 * q + r && 0 <= r < 3600;
    var m := r / 60;
    var sec := r % 60;
    Mod60(r, m, sec);
    assert a == 60 * (60 * q + m) + sec;
    Mod60(a, 60 * q + m, sec);
  }

  lemma FieldsArithmetic(t: int)
    ensures t >= 0 ==>
      && Quot(t, 3600) == t / 3600
      && Quot(Rem(t, 3600), 60) == t % 3600 / 60
      && Rem(t, 60) == t % 60
    ensures t < 0 ==>
      && Quot(t, 3600) == -((-t) / 3600)
      && Quot(Rem(t, 3600), 60) == -((-t) % 3600 / 60)
      && Rem(t, 60) == -((-t) % 60)
    ensures Quot(t, 3600) * 3600 + Quot(Rem(t, 3600), 60) * 60 + Rem(t, 60) == t
  {
    if t >= 0 {
      RemainderOfHour(t);
    } else {
      var a := -t;
      RemainderOfHour(a);
      assert Rem(t, 3600) == -(a % 3600);
      assert Rem(t, 60) == -(a % 60);
    }
  }

  predicate IsDigit(c: char) {
    '0' <= c <= '9'
  }

  predicate AllDigits(s: string) {
    forall i :: 0 <= i < |s| ==> IsDigit(s[i])
  }

  function DigitChar(d: int): (c: char)
    requires 0 <= d < 10
    ensures IsDigit(c)
    ensures c as int - '0' as int == d
  {
    ('0' as int + d) as char
  }

  /** Decimal digits of `n`, most significant first, without leading zeros. */
  function Digits(n: nat): (s: string)
    ensures AllDigits(s)
    ensures n < 10 ==> |s| == 1
    ensures n >= 10 ==> |s| >= 2
    ensures n < 100 ==> |s| <= 2
    ensures n > 0 ==> s[0] != '0'
    decreases n
  {
    if n < 10 then [DigitChar(n)] else Digits(n / 10) + [DigitChar(n % 10)]
  }

  /** The number a string of decimal digits denotes. */
  function DigitsValue(s: string): nat
    requires AllDigits(s)
    decreases |s|
  {
    if s == [] then 0 else DigitsValue(s[..|s| - 1]) * 10 + (s[|s| - 1] as int - '0' as int)
  }

  lemma {:induction false} DigitsRoundTrip(n: nat)
    ensures DigitsValue(Digits(n)) == n
    decreases n
  {
    if n >= 10 {
      var s := Digits(n);
      assert s[..|s| - 1] == Digits(n / 10);
      DigitsRoundTrip(n / 10);
    }
  }

  /**
   One field printed with `%02d`: zero-padded to two characters; a negative
   value keeps its minus sign and, already two characters long, gets no
   padding. A leading zero appears only as the padding of a single digit,
   so together with the value it reads back as this fixes the text.
   */
  function Pad2(n: int): (s: string)
    ensures 2 <= |s|
    ensures 0 <= n < 100 ==> |s| == 2
    ensures ':' !in s
    ensures n >= 0 ==> AllDigits(s)
    ensures s[0] == '0' <==> 0 <= n < 10
    ensures s[0] == '-' <==> n < 0
    ensures n < 0 ==> AllDigits(s[1..]) && s[1] != '0'
  {
    if 0 <= n < 10 then ['0', DigitChar(n)]
    else if n >= 10 then Digits(n)
    else ['-'] + Digits(-n)
  }

  /** Reads back one field: optional minus sign, then at least one digit. */
  function ParseField(f: string): Option<int> {
    if |f| > 1 && f[0] == '-' && AllDigits(f[1..]) then Some(0 - DigitsValue(f[1..]))
    else if |f| > 0 && AllDigits(f) then Some(DigitsValue(f))
    else None
  }

  lemma Pad2RoundTrip(n: int)
    ensures ParseField(Pad2(n)) == Some(n)
  {
    var s := Pad2(n);
    if 0 <= n < 10 {
      assert s == ['0', DigitChar(n)];
      assert s[..1] == ['0'] && ['0'][..0] == [];
      assert DigitsValue(s[..1]) == 0;
      assert DigitsValue(s) == n;
    } else if n >= 10 {
      DigitsRoundTrip(n);
      assert IsDigit(s[0]);
    } else {
      assert s[1..] == Digits(-n);
      DigitsRoundTrip(-n);
    }
  }

  /** The pieces of `s` between occurrences of `sep`. */
  function Split(s: string, sep: char): (parts: seq<string>)
    ensures |parts| >= 1
  {
    if s == [] then [[]]
    else
      var rest := Split(s[1..], sep);
      if s[0] == sep then [[]] + rest else [[s[0]] + rest[0]] + rest[1..]
  }

  lemma {:induction false} SplitWithoutSeparator(a: string, sep: char)
    requires sep !in a
    ensures Split(a, sep) == [a]
  {
    if a != [] {
      SplitWithoutSeparator(a[1..], sep);
      assert [a[0]] + a[1..] == a;
    }
  }

  lemma {:induction false} SplitAtSeparator(a: string, sep: char, b: string)
    requires sep !in a
    ensures Split(a + [sep] + b, sep) == [a] + Split(b, sep)
  {
    var s := a + [sep] + b;
    if a == [] {
      assert s[1..] == b;
    } else {
      assert s[1..] == a[1..] + [sep] + b;
      SplitAtSeparator(a[1..], sep, b);
      assert [a[0]] + a[1..] == a;
    }
  }

  /** `String.format("%02d:%02d:%02d", hours, minutes, seconds)`. */
  function FormatFields(f: Hms): (text: string)
    ensures 0 <= f.hours < 100 && 0 <= f.minutes < 100 && 0 <= f.seconds < 100 ==> |text| == 8
  {
    Pad2(f.hours) + ":" + Pad2(f.minutes) + ":" + Pad2(f.seconds)
  }

  /** `formatDuration`: the rendering of the fields of the total. */
  function FormatDuration(totalSeconds: int): (text: string)
    ensures 0 <= totalSeconds < 100 * 3600 ==> |text| == 8
  {
    FormatFields(Fields(totalSeconds))
  }

  /** Reads an `H:M:S` text back into the total number of seconds it denotes. */
  function ParseDuration(text: string): Option<int> {
    var parts := Split(text, ':');
    if |parts| != 3 then None
    else
      match (ParseField(parts[0]), ParseField(parts[1]), ParseField(parts[2]))
      case (Some(h), Some(m), Some(s)) => Some(h * 3600 + m * 60 + s)
      case _ => None
  }

  /** The rendering splits at its two colons into the three padded fields. */
  lemma FormatDurationParts(totalSeconds: int)
    ensures
      var f := Fields(totalSeconds);
      Split(FormatDuration(totalSeconds), ':') == [Pad2(f.hours), Pad2(f.minutes), Pad2(f.seconds)]
  {
    var f := Fields(totalSeconds);
    var h, m, s := Pad2(f.hours), Pad2(f.minutes), Pad2(f.seconds);
    assert FormatDuration(totalSeconds) == h + [':'] + (m + [':'] + s);
    SplitAtSeparator(h, ':', m + [':'] + s);
    SplitAtSeparator(m, ':', s);
    SplitWithoutSeparator(s, ':');
  }

  /** Rendering loses nothing: the text reads back as the original total, for every total. */
  lemma FormatRoundTrip(totalSeconds: int)
    ensures ParseDuration(FormatDuration(totalSeconds)) == Some(totalSeconds)
  {
    var f := Fields(totalSeconds);
    FormatDurationParts(totalSeconds);
    Pad2RoundTrip(f.hours);
    Pad2RoundTrip(f.minutes);
    Pad2RoundTrip(f.seconds);
  }

  /**
   For a non-negative total the three printed fields are exactly the hours
   (unbounded, not wrapped at 24), the minutes and the seconds, each at least
   two decimal digits long and starting with a zero only as the padding of a
   single-digit value.
   */
  lemma FormatDurationFields(totalSeconds: int)
    requires totalSeconds >= 0
    ensures
      var parts := Split(FormatDuration(totalSeconds), ':');
      && |parts| == 3
      && (forall k :: 0 <= k < 3 ==> |parts[k]| >= 2 && AllDigits(parts[k]))
      && (forall k :: 0 <= k < 3 ==> (parts[k][0] == '0' <==> |parts[k]| == 2 && ParseField(parts[k]).value < 10))
      && ParseField(parts[0]) == Some(totalSeconds / 3600)
      && ParseField(parts[1]) == Some(totalSeconds % 3600 / 60)
      && ParseField(parts[2]) == Some(totalSeconds % 60)
  {
    var f := Fields(totalSeconds);
    FormatDurationParts(totalSeconds);
    Pad2RoundTrip(f.hours);
    Pad2RoundTrip(f.minutes);
    Pad2RoundTrip(f.seconds);
  }

  lemma PadDigit(n: int)
    requires 0 <= n < 10
    ensures Pad2(n) == ['0', DigitChar(n)]
  {
  }

  lemma PadTwoDigits(n: int)
    requires 10 <= n < 100
    ensures Pad2(n) == [DigitChar(n / 10), DigitChar(n % 10)]
  {
    assert Digits(n) == Digits(n / 10) + [DigitChar(n % 10)];
  }

  /** The total the source's own test renders (one hour, one minute, one second). */
  lemma FormatDurationExample3661()
    ensures FormatDuration(3661) == "01:01:01"
  {
    assert Fields(3661) == Hms(1, 1, 1);
    PadDigit(1);
    assert DigitChar(1) == '1';
  }

  /** The one-hour and half-hour totals of the usage report test. */
  lemma FormatDurationExampleHour()
    ensures FormatDuration(3600) == "01:00:00"
    ensures FormatDuration(1800) == "00:30:00"
  {
    assert Fields(3600) == Hms(1, 0, 0);
    assert Fields(1800) == Hms(0, 30, 0);
    PadDigit(0);
    PadDigit(1);
    PadTwoDigits(30);
    assert DigitChar(0) == '0' && DigitChar(1) == '1' && DigitChar(3) == '3';
  }

  lemma FieldsOfZero()
    ensures Fields(0) == Hms(0, 0, 0)
  {
  }

  lemma FormatZeroFields()
    ensures FormatFields(Hms(0, 0, 0)) == "00:00:00"
  {
    PadDigit(0);
    assert DigitChar(0) == '0';
  }

  /** Zero renders as all-zero fields. */
  lemma FormatDurationExampleZero()
    ensures FormatDuration(0) == "00:00:00"
  {
    FieldsOfZero();
    FormatZeroFields();
  }

  /** 25 hours: the hour field is not wrapped at 24. */
  lemma FormatDurationExampleUnwrapped()
    ensures FormatDuration(90000) == "25:00:00"
  {
    var f := Fields(90000);
    assert f == Hms(25, 0, 0);
    PadDigit(0);
    PadTwoDigits(25);
    assert DigitChar(0) == '0' && DigitChar(2) == '2' && DigitChar(5) == '5';
    assert Pad2(25) == "25" && Pad2(0) == "00";
    assert FormatDuration(90000) == Pad2(25) + ":" + Pad2(0) + ":" + Pad2(0);
  }

  /**
   A negative total, which a call ending before it starts would give: each
   field keeps its own minus sign and `%02d` pads none of them, so -3725
   seconds render as `-1:-2:-5`.
   */
  lemma FormatDurationExampleNegative()
    ensures FormatDuration(-3725) == "-1:-2:-5"
  {
    assert Fields(-3725) == Hms(-1, -2, -5);
    assert DigitChar(1) == '1' && DigitChar(2) == '2' && DigitChar(5) == '5';
    assert Pad2(-1) == "-1" && Pad2(-2) == "-2" && Pad2(-5) == "-5";
  }

  /** The value a usage report carries for one direction: the rendered total. */
  datatype CallDuration = CallDuration(totalTime: string)

  /** `new CallDuration(totalSeconds)`: its text reads back as exactly `totalSeconds`. */
  function CallDurationOf(totalSeconds: int): (d: CallDuration)
    ensures ParseDuration(d.totalTime) == Some(totalSeconds)
  {
    FormatRoundTrip(totalSeconds);
    CallDuration(FormatDuration(totalSeconds))
  }
}

=== FILE: generator.dfy ===
/**
 The call-record synthesizer of `CDRServiceImpl`: a loop over a time cursor
 that, per iteration, advances the cursor, draws a caller and a distinct
 receiver, drops the attempt when either is busy and otherwise emits a record,
 buffering records and saving them in batches of 100.

 Randomness is replaced by an explicit sequence of draws, one per loop
 iteration; the parts of a draw an iteration does not consume are ignored.
 */
module Generator {
  import opened Wrappers
  import opened Records
  import opened Schedule

  /** `BATCH_SIZE`. */
  const BatchSize: nat := 100

  /**
   The random values one loop iteration may consume: the in-body step, the
   caller index, the receiver indices of the resample loop in drawing order,
   the call duration, the call-type coin and the step of the `for` update.
   The exponential draws are non-negative whole seconds.
   */
  datatype Draw = Draw(
    step: nat,
    caller: nat,
    receivers: seq<nat>,
    duration: nat,
    outgoing: bool,
    gap: nat)

  /** `IllegalStateException` with the "empty" or the "insufficient" message. */
  datatype GenError = EmptySubscribers | InsufficientSubscribers

  /**
   A draw a random source can deliver: every index is below the number of
   subscribers and the receiver resample loop ends, i.e. some drawn receiver
   has a number different from the caller's.
   */
  predicate ValidDraw(subs: seq<Subscriber>, d: Draw) {
    && d.caller < |subs|
    && (forall k :: 0 <= k < |d.receivers| ==> d.receivers[k] < |subs|)
    && (exists k :: 0 <= k < |d.receivers| && d.receivers[k] < |subs| &&
                    subs[d.receivers[k]].msisdn != subs[d.caller].msisdn)
  }

  /** The `do … while` resample: the first drawn receiver whose number differs from the caller's. */
  function PickReceiver(subs: seq<Subscriber>, caller: string, receivers: seq<nat>): (r: nat)
    requires forall k :: 0 <= k < |receivers| ==> receivers[k] < |subs|
    requires exists k :: 0 <= k < |receivers| && receivers[k] < |subs| && subs[receivers[k]].msisdn != caller
    ensures r < |subs| && subs[r].msisdn != caller
    ensures exists k :: 0 <= k < |receivers| && receivers[k] == r &&
                        forall j :: 0 <= j < k ==> subs[receivers[j]].msisdn == caller
    decreases |receivers|
  {
    if subs[receivers[0]].msisdn != caller then
      receivers[0]
    else
      var rest := receivers[1..];
      assert exists k :: 0 <= k < |rest| && rest[k] < |subs| && subs[rest[k]].msisdn != caller by {
        var k :| 0 <= k < |receivers| && receivers[k] < |subs| && subs[receivers[k]].msisdn != caller;
        assert rest[k - 1] == receivers[k];
      }
      var r := PickReceiver(subs, caller, rest);
      assert exists k :: 0 <= k < |receivers| && receivers[k] == r &&
                         forall j :: 0 <= j < k ==> subs[receivers[j]].msisdn == caller by {
        var k :| 0 <= k < |rest| && rest[k] == r && forall j :: 0 <= j < k ==> subs[rest[j]].msisdn == caller;
        assert receivers[k + 1] == r;
        forall j | 0 <= j < k + 1
          ensures subs[receivers[j]].msisdn == caller
        {
          if j > 0 {
            assert receivers[j] == rest[j - 1];
          }
        }
      }
      r
  }

  /** A record the synthesizer can emit: two different numbers, a non-negative duration, a known call type. */
  predicate WellFormedCall(c: CDR) {
    && c.msisdn != c.otherMsisdn
    && c.callStartTime <= c.callEndTime
    && (c.callType == Outgoing || c.callType == Incoming)
  }

  /**
   `generateCDR`: a record is emitted exactly when neither party is busy at
   `t`; it then starts at `t`, lasts the drawn duration, and both parties
   become busy until it ends while every other entry of the map stays as it
   was. A dropped attempt leaves the map unchanged.
   */
  function GenerateCdr(subs: seq<Subscriber>, busy: BusyMap, t: int, d: Draw): (a: Attempt)
    requires ValidDraw(subs, d)
    ensures
      var caller := subs[d.caller].msisdn;
      var receiver := subs[PickReceiver(subs, caller, d.receivers)].msisdn;
      && (a.cdr.Some? <==> !IsBusy(busy, caller, t) && !IsBusy(busy, receiver, t))
      && (a.cdr.None? ==> a.busy == busy)
      && (a.cdr.Some? ==>
            var c := a.cdr.value;
            && c.msisdn == caller && c.otherMsisdn == receiver
            && WellFormedCall(c)
            && c.callStartTime == t && CallSeconds(c) == d.duration
            && a.busy.Keys == busy.Keys + {caller, receiver}
            && a.busy[caller] == c.callEndTime && a.busy[receiver] == c.callEndTime
            && (forall p :: p in busy && p != caller && p != receiver ==> a.busy[p] == busy[p]))
  {
    var caller := subs[d.caller].msisdn;
    var receiver := subs[PickReceiver(subs, caller, d.receivers)].msisdn;
    if IsBusy(busy, caller, t) || IsBusy(busy, receiver, t) then
      Attempt(None, busy)
    else
      var c := CDR(if d.outgoing then Outgoing else Incoming, caller, receiver, t, t + d.duration);
      Attempt(Some(c), Occupy(busy, c))
  }

  /** The saved batches, in saving order, joined into one sequence. */
  function Flatten(batches: seq<seq<CDR>>): seq<CDR> {
    if batches == [] then [] else Flatten(batches[..|batches| - 1]) + batches[|batches| - 1]
  }

  /**
   `saveCDRBatch`: a non-empty buffer is appended to the store as one batch
   and the buffer is emptied; an empty buffer writes nothing. Nothing is lost
   and earlier batches are untouched.
   */
  function SaveBatch(batches: seq<seq<CDR>>, buffer: seq<CDR>): (r: (seq<seq<CDR>>, seq<CDR>))
    ensures r.1 == []
    ensures Flatten(r.0) == Flatten(batches) + buffer
    ensures |batches| <= |r.0| <= |batches| + 1 && r.0[..|batches|] == batches
    ensures forall k :: |batches| <= k < |r.0| ==> r.0[k] == buffer && buffer != []
  {
    if buffer != [] then
      var saved := batches + [buffer];
      assert saved[..|saved| - 1] == batches;
      (saved, [])
    else
      assert Flatten(batches) + buffer == Flatten(batches);
      (batches, buffer)
  }

  /** The loop's state: the cursor, the busy map, the batch buffer and the batches saved so far. */
  datatype Progress = Progress(cursor: int, busy: BusyMap, buffer: seq<CDR>, batches: seq<seq<CDR>>)

  /** Every record emitted so far, saved or still buffered, in emission order. */
  function Emitted(s: Progress): seq<CDR> {
    Flatten(s.batches) + s.buffer
  }

  function Max(a: int, b: int): int {
    if a >= b then a else b
  }

  /**
   One iteration of the `for` loop: the in-body step of at least one
   second, one call attempt at the new cursor, a save when the buffer
   reaches the batch size, and the `for` update by the second step. The
   cursor moves forward by at least a second, and a buffer below the batch
   size stays below it.
   */
  function Iterate(subs: seq<Subscriber>, s: Progress, d: Draw): (s': Progress)
    requires ValidDraw(subs, d)
    ensures s'.cursor >= s.cursor + 1
  {
    var t := s.cursor + Max(1, d.step);
    var a := GenerateCdr(subs, s.busy, t, d);
    var buffer := if a.cdr.Some? then s.buffer + [a.cdr.value] else s.buffer;
    var saved := if |buffer| >= BatchSize then SaveBatch(s.batches, buffer) else (s.batches, buffer);
    Progress(t + d.gap, a.busy, saved.1, saved.0)
  }

  /** `a` starts strictly before `b`. */
  predicate StartsBefore(a: CDR, b: CDR) {
    a.callStartTime < b.callStartTime
  }

  /**
   The emitted records are well formed, start after the window start and no
   later than the cursor, in strictly increasing order.
   */
  ghost predicate OrderedLog(windowStart: int, cursor: int, log: seq<CDR>) {
    && (forall i :: 0 <= i < |log| ==> WellFormedCall(log[i]) && windowStart < log[i].callStartTime <= cursor)
    && (forall i, j {:trigger StartsBefore(log[i], log[j])} :: 0 <= i < j < |log| ==> StartsBefore(log[i], log[j]))
  }

  /** What holds after every iteration. */
  ghost predicate Consistent(windowStart: int, s: Progress) {
    && windowStart <= s.cursor
    && |s.buffer| < BatchSize
    && (forall k :: 0 <= k < |s.batches| ==> |s.batches[k]| == BatchSize)
    && OrderedLog(windowStart, s.cursor, Emitted(s))
    && CoversAll(s.busy, Emitted(s))
    && NoOverlap(Emitted(s))
  }

  lemma OrderedLogExtends(windowStart: int, cursor: int, t: int, cursor': int, log: seq<CDR>, c: CDR)
    requires OrderedLog(windowStart, cursor, log) && windowStart <= cursor
    requires WellFormedCall(c) && c.callStartTime == t && cursor < t <= cursor'
    ensures OrderedLog(windowStart, cursor', log + [c])
  {
  }

  /**
   An iteration keeps the loop consistent, moves the cursor forward by at
   least one second and appends at most one record to the emitted ones.
   */
  lemma IterateKeepsConsistent(subs: seq<Subscriber>, windowStart: int, s: Progress, d: Draw)
    requires ValidDraw(subs, d)
    requires Consistent(windowStart, s)
    ensures
      var s' := Iterate(subs, s, d);
      && Consistent(windowStart, s')
      && s'.cursor >= s.cursor + 1
      && Emitted(s) <= Emitted(s')
      && |Emitted(s')| <= |Emitted(s)| + 1
  {
    var t := s.cursor + Max(1, d.step);
    var a := GenerateCdr(subs, s.busy, t, d);
    var log := Emitted(s);
    var s' := Iterate(subs, s, d);
    IterateKeepsBatches(subs, s, d);
    assert Emitted(s') == log + (if a.cdr.Some? then [a.cdr.value] else []) && s'.busy == a.busy by {
      IterateEmits(subs, s, d);
    }
    if a.cdr.Some? {
      var c := a.cdr.value;
      AdmitKeepsNoOverlap(s.busy, log, c);
      OrderedLogExtends(windowStart, s.cursor, t, s'.cursor, log, c);
    } else {
      assert log + [] == log;
    }
  }

  /**
   Adding at most one record to a buffer below the batch size, and saving it
   once it reaches that size, leaves the buffer below the batch size and
   every saved batch full.
   */
  lemma BufferStepKeepsBatches(batches: seq<seq<CDR>>, buffer: seq<CDR>, e: seq<CDR>)
    requires |buffer| < BatchSize && |e| <= 1
    requires forall k :: 0 <= k < |batches| ==> |batches[k]| == BatchSize
    ensures
      var b := buffer + e;
      var saved := if |b| >= BatchSize then SaveBatch(batches, b) else (batches, b);
      |saved.1| < BatchSize && forall k :: 0 <= k < |saved.0| ==> |saved.0[k]| == BatchSize
  {
  }

  /** An iteration keeps the buffer below the batch size and every saved batch full. */
  lemma IterateKeepsBatches(subs: seq<Subscriber>, s: Progress, d: Draw)
    requires ValidDraw(subs, d)
    requires |s.buffer| < BatchSize && forall k :: 0 <= k < |s.batches| ==> |s.batches[k]| == BatchSize
    ensures
      var s' := Iterate(subs, s, d);
      |s'.buffer| < BatchSize && forall k :: 0 <= k < |s'.batches| ==> |s'.batches[k]| == BatchSize
  {
    var t := s.cursor + Max(1, d.step);
    var a := GenerateCdr(subs, s.busy, t, d);
    var e := if a.cdr.Some? then [a.cdr.value] else [];
    assert (if a.cdr.Some? then s.buffer + [a.cdr.value] else s.buffer) == s.buffer + e;
    BufferStepKeepsBatches(s.batches, s.buffer, e);
  }

  /**
   The final save leaves every emitted record in the store: all batches are
   non-empty, none exceeds the batch size and all but the last are full.
   */
  lemma FinalSaveKeepsBatches(windowStart: int, s: Progress)
    requires Consistent(windowStart, s)
    ensures
      var batches := SaveBatch(s.batches, s.buffer).0;
      && Flatten(batches) == Emitted(s)
      && (forall k :: 0 <= k < |batches| ==> 0 < |batches[k]| <= BatchSize)
      && (forall k :: 0 <= k < |batches| - 1 ==> |batches[k]| == BatchSize)
  {
  }

  /**
   The records a run emits from the `i`-th draw on, attempt by attempt and
   without any buffering: the reference the saved batches are held to. It
   stops at the window end or when the draws run out.
   */
  function Trace(subs: seq<Subscriber>, cursor: int, busy: BusyMap, windowEnd: int, draws: seq<Draw>, i: nat): seq<CDR>
    requires forall k :: 0 <= k < |draws| ==> ValidDraw(subs, draws[k])
    decreases |draws| - i
  {
    if windowEnd <= cursor || i >= |draws| then []
    else
      var d := draws[i];
      var t := cursor + Max(1, d.step);
      var a := GenerateCdr(subs, busy, t, d);
      (if a.cdr.Some? then [a.cdr.value] else []) + Trace(subs, t + d.gap, a.busy, windowEnd, draws, i + 1)
  }

  /** An iteration appends the record of its attempt, if any, to the emitted ones. */
  lemma IterateEmits(subs: seq<Subscriber>, s: Progress, d: Draw)
    requires ValidDraw(subs, d)
    ensures
      var t := s.cursor + Max(1, d.step);
      var a := GenerateCdr(subs, s.busy, t, d);
      var s' := Iterate(subs, s, d);
      && Emitted(s') == Emitted(s) + (if a.cdr.Some? then [a.cdr.value] else [])
      && s'.cursor == t + d.gap && s'.busy == a.busy
  {
    var t := s.cursor + Max(1, d.step);
    var a := GenerateCdr(subs, s.busy, t, d);
    if a.cdr.None? {
      assert s.buffer + [] == s.buffer;
    }
  }

  /** The trace from a cursor inside the window starts with the record of its first attempt, if any. */
  lemma TraceStep(subs: seq<Subscriber>, cursor: int, busy: BusyMap, windowEnd: int, draws: seq<Draw>, i: nat)
    requires forall k :: 0 <= k < |draws| ==> ValidDraw(subs, draws[k])
    requires i < |draws| && cursor < windowEnd
    ensures
      var d := draws[i];
      var t := cursor + Max(1, d.step);
      var a := GenerateCdr(subs, busy, t, d);
      Trace(subs, cursor, busy, windowEnd, draws, i)
        == (if a.cdr.Some? then [a.cdr.value] else []) + Trace(subs, t + d.gap, a.busy, windowEnd, draws, i + 1)
  {
  }

  /**
   A state that has emitted the record of the first attempt of the remaining
   trace, if any, and moved on to where that attempt leaves the cursor and the
   busy map, has the same emitted records followed by the rest of the trace.
   */
  lemma FollowsTrace(subs: seq<Subscriber>, s: Progress, s': Progress, windowEnd: int, draws: seq<Draw>, i: nat)
    requires forall k :: 0 <= k < |draws| ==> ValidDraw(subs, draws[k])
    requires i < |draws| && s.cursor < windowEnd
    requires
      var d := draws[i];
      var t := s.cursor + Max(1, d.step);
      var a := GenerateCdr(subs, s.busy, t, d);
      && Emitted(s') == Emitted(s) + (if a.cdr.Some? then [a.cdr.value] else [])
      && s'.cursor == t + d.gap && s'.busy == a.busy
    ensures
      Emitted(s) + Trace(subs, s.cursor, s.busy, windowEnd, draws, i)
        == Emitted(s') + Trace(subs, s'.cursor, s'.busy, windowEnd, draws, i + 1)
  {
    var d := draws[i];
    var a := GenerateCdr(subs, s.busy, s.cursor + Max(1, d.step), d);
    TraceStep(subs, s.cursor, s.busy, windowEnd, draws, i);
    Rebase(Emitted(s), Trace(subs, s.cursor, s.busy, windowEnd, draws, i),
      if a.cdr.Some? then [a.cdr.value] else [], Trace(subs, s'.cursor, s'.busy, windowEnd, draws, i + 1), Emitted(s'));
  }

  /** An iteration moves the first record of the remaining trace, if any, into the emitted ones. */
  lemma IterateFollowsTrace(subs: seq<Subscriber>, s: Progress, windowEnd: int, draws: seq<Draw>, i: nat)
    requires forall k :: 0 <= k < |draws| ==> ValidDraw(subs, draws[k])
    requires i < |draws| && s.cursor < windowEnd
    ensures
      var s' := Iterate(subs, s, draws[i]);
      Emitted(s) + Trace(subs, s.cursor, s.busy, windowEnd, draws, i)
        == Emitted(s') + Trace(subs, s'.cursor, s'.busy, windowEnd, draws, i + 1)
  {
    IterateEmits(subs, s, draws[i]);
    FollowsTrace(subs, s, Iterate(subs, s, draws[i]), windowEnd, draws, i);
  }

  /** What one run leaves behind: the saved batches, the final busy map and cursor, and how many iterations ran. */
  datatype Generation = Generation(batches: seq<seq<CDR>>, busy: BusyMap, cursor: int, iterations: nat)

  /**
   What a successful run guarantees. The loop has reached the window end
   after at least one iteration for a non-empty window and at most one per
   second of it. The batches are non-empty, none exceeds the batch size and
   all but the last are full. Joined, they are exactly the trace of the
   attempts, in order, and hold at most one record per iteration. The
   records are well formed, start strictly after the window start in
   strictly increasing order, and never put a subscriber on two calls at
   once. The final busy map covers every record.
   */
  ghost predicate Generated(subs: seq<Subscriber>, windowStart: int, windowEnd: int, draws: seq<Draw>, g: Generation)
    requires forall k :: 0 <= k < |draws| ==> ValidDraw(subs, draws[k])
  {
    var log := Flatten(g.batches);
      && windowEnd <= g.cursor
      && (g.iterations == 0 || g.iterations <= windowEnd - windowStart)
      && (windowStart < windowEnd ==> g.iterations >= 1)
      && |log| <= g.iterations
      && (forall k :: 0 <= k < |g.batches| ==> 0 < |g.batches[k]| <= BatchSize)
      && (forall k :: 0 <= k < |g.batches| - 1 ==> |g.batches[k]| == BatchSize)
      && OrderedLog(windowStart, g.cursor, log)
      && NoOverlap(log)
      && CoversAll(g.busy, log)
      && log == Trace(subs, windowStart, map[], windowEnd, draws, 0)
  }

  /**
   A state that is consistent, has reached the window end within one
   iteration per second of the window and has emitted exactly the trace
   meets `Generated` once its buffer is saved.
   */
  lemma FinalSaveGenerated(subs: seq<Subscriber>, windowStart: int, windowEnd: int, draws: seq<Draw>, f: Progress, n: nat)
    requires forall k :: 0 <= k < |draws| ==> ValidDraw(subs, draws[k])
    requires Consistent(windowStart, f) && |Emitted(f)| <= n
    requires Emitted(f) == Trace(subs, windowStart, map[], windowEnd, draws, 0)
    requires windowEnd <= f.cursor && (n == 0 || n <= windowEnd - windowStart) && (windowStart < windowEnd ==> n >= 1)
    ensures Generated(subs, windowStart, windowEnd, draws, Generation(SaveBatch(f.batches, f.buffer).0, f.busy, f.cursor, n))
  {
    FinalSaveKeepsBatches(windowStart, f);
  }

  /**
   The reference run of the loop: iterations from the `i`-th draw on, until
   the cursor reaches the window end or the draws run out. It gives the
   state the loop leaves and the number of iterations made by then.
   */
  function Run(subs: seq<Subscriber>, s: Progress, windowEnd: int, draws: seq<Draw>, i: nat): (r: (Progress, nat))
    requires forall k :: 0 <= k < |draws| ==> ValidDraw(subs, draws[k])
    ensures i <= r.1 && r.0.cursor >= s.cursor + (r.1 - i)
    ensures windowEnd <= r.0.cursor || r.1 >= |draws|
    ensures r.1 - i <= Max(0, windowEnd - s.cursor)
    ensures s.cursor < windowEnd && i < |draws| ==> i < r.1
    decreases windowEnd - s.cursor
  {
    if windowEnd <= s.cursor || i >= |draws| then (s, i)
    else Run(subs, Iterate(subs, s, draws[i]), windowEnd, draws, i + 1)
  }

  /** The records a run leaves behind are those it started with followed by the trace of its attempts. */
  lemma {:induction false} RunFollowsTrace(subs: seq<Subscriber>, s: Progress, windowEnd: int, draws: seq<Draw>, i: nat)
    requires forall k :: 0 <= k < |draws| ==> ValidDraw(subs, draws[k])
    ensures
      Emitted(Run(subs, s, windowEnd, draws, i).0) == Emitted(s) + Trace(subs, s.cursor, s.busy, windowEnd, draws, i)
    decreases windowEnd - s.cursor
  {
    if windowEnd <= s.cursor || i >= |draws| {
      assert Emitted(s) + [] == Emitted(s);
    } else {
      IterateFollowsTrace(subs, s, windowEnd, draws, i);
      RunFollowsTrace(subs, Iterate(subs, s, draws[i]), windowEnd, draws, i + 1);
    }
  }

  /**
   A run keeps the loop consistent: the buffer below the batch size, every
   saved batch full, and the records well formed, ordered and free of
   overlaps. It adds at most one record per iteration.
   */
  lemma {:induction false} RunKeepsConsistent(subs: seq<Subscriber>, windowStart: int, s: Progress, windowEnd: int, draws: seq<Draw>, i: nat)
    requires forall k :: 0 <= k < |draws| ==> ValidDraw(subs, draws[k])
    requires Consistent(windowStart, s)
    ensures
      var r := Run(subs, s, windowEnd, draws, i);
      Consistent(windowStart, r.0) && i <= r.1 && |Emitted(r.0)| <= |Emitted(s)| + (r.1 - i)
    decreases windowEnd - s.cursor
  {
    if s.cursor < windowEnd && i < |draws| {
      IterateKeepsConsistent(subs, windowStart, s, draws[i]);
      RunKeepsConsistent(subs, windowStart, Iterate(subs, s, draws[i]), windowEnd, draws, i + 1);
    }
  }

  /**
   Running the loop from the window start with an empty busy map and no
   records, then saving the rest of the buffer, gives a run that meets
   `Generated`.
   */
  lemma RunGenerated(subs: seq<Subscriber>, windowStart: int, windowEnd: int, draws: seq<Draw>)
    requires forall k :: 0 <= k < |draws| ==> ValidDraw(subs, draws[k])
    requires windowEnd - windowStart <= |draws|
    ensures
      var r := Run(subs, Progress(windowStart, map[], [], []), windowEnd, draws, 0);
      Generated(subs, windowStart, windowEnd, draws, Generation(SaveBatch(r.0.batches, r.0.buffer).0, r.0.busy, r.0.cursor, r.1))
  {
    var start := Progress(windowStart, map[], [], []);
    assert Emitted(start) == [];
    RunFollowsTrace(subs, start, windowEnd, draws, 0);
    RunKeepsConsistent(subs, windowStart, start, windowEnd, draws, 0);
    var r := Run(subs, start, windowEnd, draws, 0);
    assert Emitted(r.0) == Trace(subs, windowStart, map[], windowEnd, draws, 0);
    FinalSaveGenerated(subs, windowStart, windowEnd, draws, r.0, r.1);
  }

  /**
   `generateCDRs`. Fewer than two subscribers fail before anything is saved.
   Otherwise the loop runs until the cursor reaches the window end; it needs
   at most one draw per second of the window because every iteration moves the
   cursor by at least one second. The saved batches hold every emitted record
   in emission order: all are non-empty, none exceeds the batch size, and all
   but the last are full. The emitted records are well formed, start strictly
   after the window start in strictly increasing order, and never put a
   subscriber on two calls at once.
   */
  method GenerateCdrs(subs: seq<Subscriber>, windowStart: int, windowEnd: int, draws: seq<Draw>)
    returns (r: Result<Generation, GenError>)
    requires |subs| >= 2 ==> forall i :: 0 <= i < |draws| ==> ValidDraw(subs, draws[i])
    requires windowEnd - windowStart <= |draws|
    ensures |subs| == 0 <==> r == Failure(EmptySubscribers)
    ensures |subs| == 1 <==> r == Failure(InsufficientSubscribers)
    ensures r.Success? ==> Generated(subs, windowStart, windowEnd, draws, r.value)
  {
    if |subs| == 0 {
      return Failure(EmptySubscribers);
    }
    if |subs| < 2 {
      return Failure(InsufficientSubscribers);
    }
    var start := Progress(windowStart, map[], [], []);
    var s := start;
    var i := 0;
    while s.cursor < windowEnd
      invariant i <= |draws| && windowStart + i <= s.cursor
      invariant Run(subs, s, windowEnd, draws, i) == Run(subs, start, windowEnd, draws, 0)
      decreases windowEnd - s.cursor
    {
      s := Iterate(subs, s, draws[i]);
      i := i + 1;
    }
    RunGenerated(subs, windowStart, windowEnd, draws);
    return Success(Generation(SaveBatch(s.batches, s.buffer).0, s.busy, s.cursor, i));
  }

  /**
   The loop guard is evaluated before the in-body step, so a record may start
   at or after the window end: in a window from 0 to 1, the cursor passes the
   guard at 0, a step of 5 seconds follows, and the only record starts at 5.
   Both the reference trace and the run of the loop emit it.
   */
  lemma RecordMayStartAfterWindowEnd()
    ensures
      var subs := [Subscriber("79991112233"), Subscriber("79992221122")];
      var d := Draw(5, 0, [1], 10, true, 0);
      var c := CDR(Outgoing, "79991112233", "79992221122", 5, 15);
      && ValidDraw(subs, d)
      && Trace(subs, 0, map[], 1, [d], 0) == [c]
      && Emitted(Run(subs, Progress(0, map[], [], []), 1, [d], 0).0) == [c]
      && c.callStartTime > 1
  {
    var subs := [Subscriber("79991112233"), Subscriber("79992221122")];
    var d := Draw(5, 0, [1], 10, true, 0);
    assert ValidDraw(subs, d) by {
      assert subs[d.receivers[0]].msisdn != subs[d.caller].msisdn;
    }
    assert PickReceiver(subs, "79991112233", [1]) == 1;
  }

  /**
   The duration draw may be zero, and such a call is still emitted: it starts
   and ends at the same second and is well formed.
   */
  lemma ZeroSecondCallEmitted()
    ensures
      var subs := [Subscriber("79991112233"), Subscriber("79992221122")];
      var d := Draw(1, 0, [1], 0, false, 0);
      var c := CDR(Incoming, "79991112233", "79992221122", 1, 1);
      && ValidDraw(subs, d)
      && Trace(subs, 0, map[], 2, [d], 0) == [c]
      && WellFormedCall(c) && CallSeconds(c) == 0
  {
    var subs := [Subscriber("79991112233"), Subscriber("79992221122")];
    var d := Draw(1, 0, [1], 0, false, 0);
    assert ValidDraw(subs, d) by {
      assert subs[d.receivers[0]].msisdn != subs[d.caller].msisdn;
    }
    assert PickReceiver(subs, "79991112233", [1]) == 1;
  }

  /**
   When every subscriber has the same number no draw can end the receiver
   resample, whatever the number of subscribers: the minimum-two check does
   not by itself make the loop terminate.
   */
  lemma SameNumbersNeverResample(subs: seq<Subscriber>, d: Draw)
    requires forall i, j :: 0 <= i < |subs| && 0 <= j < |subs| ==> subs[i].msisdn == subs[j].msisdn
    ensures !ValidDraw(subs, d)
  {
  }
}

=== FILE: legacy_generator.dfy ===
/**
 The older call-record synthesizer of `CDRService`, the one the application
 runs at start-up. Against `CDRServiceImpl` it differs in that: there is no
 minimum-two check (an empty list fails only once the loop body runs); caller
 and receiver are drawn independently and may be the same subscriber; the
 cursor moves only by the `for` update, whose step may be zero; and records
 are saved one by one, with a flush each time the running count reaches a
 multiple of 100 and one final flush when the count is not such a multiple.

 A zero step means the loop need not terminate, so the finite draw sequence
 acts as fuel: when it runs out before the cursor reaches the window end the
 run is reported as not completed and the final flush has not happened yet.
 */
module LegacyGenerator {
  import opened Wrappers
  import opened Records
  import opened Schedule

  /** `batchSize`, the flush interval of this variant's loop. */
  const BatchSize: nat := 100

  /** `IllegalStateException` thrown inside the loop body when the subscriber list is empty. */
  datatype LegacyError = EmptySubscriberList

  /** The random values one iteration may consume: two independent indices, the type coin, the duration, the `for` step. */
  datatype LegacyDraw = LegacyDraw(caller: nat, receiver: nat, outgoing: bool, duration: nat, gap: nat)

  predicate ValidLegacyDraw(subs: seq<Subscriber>, d: LegacyDraw) {
    d.caller < |subs| && d.receiver < |subs|
  }

  /** A record this variant can save: non-negative duration and a known call type; the two numbers may coincide. */
  predicate LegacyWellFormed(c: CDR) {
    c.callStartTime <= c.callEndTime && (c.callType == Outgoing || c.callType == Incoming)
  }

  /**
   The body of one iteration: a record is saved exactly when neither drawn
   party is busy at the cursor; both parties then become busy until it ends,
   every other entry of the busy map staying as it was.
   */
  function LegacyAttempt(subs: seq<Subscriber>, busy: BusyMap, t: int, d: LegacyDraw): (a: Attempt)
    requires ValidLegacyDraw(subs, d)
    ensures
      var caller := subs[d.caller].msisdn;
      var receiver := subs[d.receiver].msisdn;
      && (a.cdr.Some? <==> !IsBusy(busy, caller, t) && !IsBusy(busy, receiver, t))
      && (a.cdr.None? ==> a.busy == busy)
      && (a.cdr.Some? ==>
            var c := a.cdr.value;
            && c.msisdn == caller && c.otherMsisdn == receiver
            && LegacyWellFormed(c)
            && c.callStartTime == t && CallSeconds(c) == d.duration
            && a.busy.Keys == busy.Keys + {caller, receiver}
            && a.busy[caller] == c.callEndTime && a.busy[receiver] == c.callEndTime
            && (forall p :: p in busy && p != caller && p != receiver ==> a.busy[p] == busy[p]))
  {
    var caller := subs[d.caller].msisdn;
    var receiver := subs[d.receiver].msisdn;
    if IsBusy(busy, caller, t) || IsBusy(busy, receiver, t) then
      Attempt(None, busy)
    else
      var c := CDR(if d.outgoing then Outgoing else Incoming, caller, receiver, t, t + d.duration);
      Attempt(Some(c), Occupy(busy, c))
  }

  /** The loop's state: cursor, busy map, saved records, their count, and the count at each flush. */
  datatype LegacyProgress = LegacyProgress(cursor: int, busy: BusyMap, saved: seq<CDR>, count: nat, flushes: seq<nat>)

  /**
   One iteration: an attempt at the cursor, a save with a flush on every
   hundredth record, then the `for` step. At most one record is saved, the
   count grows by exactly the records saved, a flush is recorded exactly when
   a save makes the count a multiple of the batch size, and the cursor moves
   by the step alone, which may be zero.
   */
  function LegacyIterate(subs: seq<Subscriber>, s: LegacyProgress, d: LegacyDraw): (s': LegacyProgress)
    requires ValidLegacyDraw(subs, d)
    ensures s.saved <= s'.saved && |s'.saved| <= |s.saved| + 1
    ensures s'.count == s.count + (|s'.saved| - |s.saved|)
    ensures s.flushes <= s'.flushes && |s'.flushes| <= |s.flushes| + 1
    ensures |s'.flushes| == |s.flushes| + 1 <==> |s'.saved| > |s.saved| && s'.count % BatchSize == 0
    ensures |s'.flushes| == |s.flushes| + 1 ==> s'.flushes[|s.flushes|] == s'.count
    ensures s'.cursor == s.cursor + d.gap
  {
    var a := LegacyAttempt(subs, s.busy, s.cursor, d);
    match a.cdr
    case None => s.(cursor := s.cursor + d.gap)
    case Some(c) =>
      var count := s.count + 1;
      var flushes := if count % BatchSize == 0 then s.flushes + [count] else s.flushes;
      LegacyProgress(s.cursor + d.gap, a.busy, s.saved + [c], count, flushes)
  }

  /**
   The saved records are well formed and in non-decreasing order. Each
   starts at a cursor that passed the loop guard: no earlier than the window
   start, no later than the current cursor and strictly before the window end.
   */
  ghost predicate LegacyLog(windowStart: int, windowEnd: int, cursor: int, log: seq<CDR>) {
    && (forall i :: 0 <= i < |log| ==>
          LegacyWellFormed(log[i]) && windowStart <= log[i].callStartTime <= cursor && log[i].callStartTime < windowEnd)
    && (forall i, j :: 0 <= i < j < |log| ==> log[i].callStartTime <= log[j].callStartTime)
  }

  /** The k-th flush (from 0) of a completed run that saved `count` records. */
  function FlushPoint(k: nat, count: nat): nat {
    if BatchSize * (k + 1) <= count then BatchSize * (k + 1) else count
  }

  /** What holds after every iteration: one flush per full hundred saved so far. */
  ghost predicate LegacyConsistent(windowStart: int, windowEnd: int, s: LegacyProgress) {
    && windowStart <= s.cursor
    && s.count == |s.saved|
    && |s.flushes| == s.count / BatchSize
    && (forall k :: 0 <= k < |s.flushes| ==> s.flushes[k] == BatchSize * (k + 1))
    && LegacyLog(windowStart, windowEnd, s.cursor, s.saved)
    && CoversAll(s.busy, s.saved)
    && NoOverlap(s.saved)
  }

  /** An iteration that passed the loop guard keeps the loop consistent and never moves the cursor back. */
  lemma LegacyIterateKeepsConsistent(subs: seq<Subscriber>, windowStart: int, windowEnd: int, s: LegacyProgress, d: LegacyDraw)
    requires ValidLegacyDraw(subs, d)
    requires LegacyConsistent(windowStart, windowEnd, s) && s.cursor < windowEnd
    ensures
      var s' := LegacyIterate(subs, s, d);
      && LegacyConsistent(windowStart, windowEnd, s')
      && s'.cursor == s.cursor + d.gap
      && s.saved <= s'.saved
      && |s'.saved| <= |s.saved| + 1
  {
    var a := LegacyAttempt(subs, s.busy, s.cursor, d);
    if a.cdr.Some? {
      AdmitKeepsNoOverlap(s.busy, s.saved, a.cdr.value);
    }
  }

  /** The records a run saves from the `i`-th draw on, attempt by attempt: the reference the saved sequence is held to. */
  function LegacyTrace(subs: seq<Subscriber>, cursor: int, busy: BusyMap, windowEnd: int, draws: seq<LegacyDraw>, i: nat): seq<CDR>
    requires forall k :: 0 <= k < |draws| ==> ValidLegacyDraw(subs, draws[k])
    decreases |draws| - i
  {
    if windowEnd <= cursor || i >= |draws| then []
    else
      var d := draws[i];
      var a := LegacyAttempt(subs, busy, cursor, d);
      (if a.cdr.Some? then [a.cdr.value] else []) + LegacyTrace(subs, cursor + d.gap, a.busy, windowEnd, draws, i + 1)
  }

  /** An iteration moves the first record of the remaining trace, if any, into the saved ones. */
  lemma LegacyIterateFollowsTrace(subs: seq<Subscriber>, s: LegacyProgress, windowEnd: int, draws: seq<LegacyDraw>, i: nat)
    requires forall k :: 0 <= k < |draws| ==> ValidLegacyDraw(subs, draws[k])
    requires i < |draws| && s.cursor < windowEnd
    ensures
      var s' := LegacyIterate(subs, s, draws[i]);
      s.saved + LegacyTrace(subs, s.cursor, s.busy, windowEnd, draws, i)
        == s'.saved + LegacyTrace(subs, s'.cursor, s'.busy, windowEnd, draws, i + 1)
  {
    var d := draws[i];
    var a := LegacyAttempt(subs, s.busy, s.cursor, d);
    var e := if a.cdr.Some? then [a.cdr.value] else [];
    var tail := LegacyTrace(subs, s.cursor + d.gap, a.busy, windowEnd, draws, i + 1);
    assert LegacyTrace(subs, s.cursor, s.busy, windowEnd, draws, i) == e + tail;
    var s' := LegacyIterate(subs, s, d);
    assert s'.saved == s.saved + e && s'.cursor == s.cursor + d.gap && s'.busy == a.busy;
    Rebase(s.saved, LegacyTrace(subs, s.cursor, s.busy, windowEnd, draws, i), e, tail, s'.saved);
  }

  /** What a run leaves behind; `completed` is false when the draws ran out before the window end. */
  datatype LegacyRun = LegacyRun(
    saved: seq<CDR>,
    flushes: seq<nat>,
    count: nat,
    busy: BusyMap,
    cursor: int,
    iterations: nat,
    completed: bool)

  /** The final flush of a completed run: exactly one more flush when the count is not a multiple of the batch size. */
  lemma FinalFlush(count: nat, flushes: seq<nat>)
    requires |flushes| == count / BatchSize
    requires forall k :: 0 <= k < |flushes| ==> flushes[k] == BatchSize * (k + 1)
    ensures
      var all := if count % BatchSize != 0 then flushes + [count] else flushes;
      && |all| == (count + BatchSize - 1) / BatchSize
      && forall k :: 0 <= k < |all| ==> all[k] == FlushPoint(k, count)
  {
    var all := if count % BatchSize != 0 then flushes + [count] else flushes;
    forall k | 0 <= k < |all|
      ensures all[k] == FlushPoint(k, count)
    {
      if k < |flushes| {
        assert BatchSize * (k + 1) <= BatchSize * (count / BatchSize);
      }
    }
  }

  /**
   What a run that did not fail guarantees. The count equals the number of
   saved records, which are exactly the trace of the attempts, in order. A
   run completes exactly when the cursor reached the window end; otherwise
   every draw was consumed. A completed run has flushed after every
   hundredth record and once more at the end when the count is not a
   multiple of 100; an interrupted one only after every hundredth. The saved
   records are well formed, start in the window strictly before its end and
   no later than the cursor, in non-decreasing order, and never put a
   subscriber on two calls at once.
   When every step is zero the cursor never moves and the run cannot
   complete.
   */
  ghost predicate LegacyGenerated(subs: seq<Subscriber>, windowStart: int, windowEnd: int, draws: seq<LegacyDraw>, run: LegacyRun)
    requires forall i :: 0 <= i < |draws| ==> ValidLegacyDraw(subs, draws[i])
  {
    && run.count == |run.saved|
    && run.saved == LegacyTrace(subs, windowStart, map[], windowEnd, draws, 0)
    && (run.completed <==> windowEnd <= run.cursor)
    && (!run.completed ==> run.iterations == |draws|)
    && (run.completed ==>
          && |run.flushes| == (run.count + BatchSize - 1) / BatchSize
          && (forall k :: 0 <= k < |run.flushes| ==> run.flushes[k] == FlushPoint(k, run.count)))
    && (!run.completed ==>
          && |run.flushes| == run.count / BatchSize
          && (forall k :: 0 <= k < |run.flushes| ==> run.flushes[k] == BatchSize * (k + 1)))
    && LegacyLog(windowStart, windowEnd, run.cursor, run.saved)
    && NoOverlap(run.saved)
    && CoversAll(run.busy, run.saved)
    && ((forall i :: 0 <= i < |draws| ==> draws[i].gap == 0) && windowStart < windowEnd ==> !run.completed)
  }

  /** What the loop of `GenerateCdrsLegacy` keeps after `i` iterations that led to `s`. */
  ghost predicate LegacyLoopInvariant(subs: seq<Subscriber>, windowStart: int, windowEnd: int, draws: seq<LegacyDraw>, i: nat, s: LegacyProgress) {
    && (forall k :: 0 <= k < |draws| ==> ValidLegacyDraw(subs, draws[k]))
    && i <= |draws|
    && LegacyConsistent(windowStart, windowEnd, s)
    && ((forall k :: 0 <= k < |draws| ==> draws[k].gap == 0) ==> s.cursor == windowStart)
    && s.saved + LegacyTrace(subs, s.cursor, s.busy, windowEnd, draws, i) == LegacyTrace(subs, windowStart, map[], windowEnd, draws, 0)
  }

  /** One more iteration inside the window keeps the loop invariant. */
  lemma LegacyLoopStep(subs: seq<Subscriber>, windowStart: int, windowEnd: int, draws: seq<LegacyDraw>, i: nat, s: LegacyProgress)
    requires LegacyLoopInvariant(subs, windowStart, windowEnd, draws, i, s)
    requires i < |draws| && s.cursor < windowEnd
    ensures LegacyLoopInvariant(subs, windowStart, windowEnd, draws, i + 1, LegacyIterate(subs, s, draws[i]))
  {
    LegacyIterateKeepsConsistent(subs, windowStart, windowEnd, s, draws[i]);
    LegacyIterateFollowsTrace(subs, s, windowEnd, draws, i);
  }

  /** Leaving the loop, at the window end or with the draws used up, gives a run that keeps every guarantee. */
  lemma LegacyLoopDone(subs: seq<Subscriber>, windowStart: int, windowEnd: int, draws: seq<LegacyDraw>, i: nat, s: LegacyProgress)
    requires LegacyLoopInvariant(subs, windowStart, windowEnd, draws, i, s)
    requires windowEnd <= s.cursor || i == |draws|
    ensures
      var completed := windowEnd <= s.cursor;
      var flushes := if completed && s.count % BatchSize != 0 then s.flushes + [s.count] else s.flushes;
      LegacyGenerated(subs, windowStart, windowEnd, draws, LegacyRun(s.saved, flushes, s.count, s.busy, s.cursor, i, completed))
  {
    FinalFlush(s.count, s.flushes);
    assert LegacyTrace(subs, s.cursor, s.busy, windowEnd, draws, i) == [];
    assert s.saved + [] == s.saved;
  }

  /**
   `generateCDRs` of `CDRService`. An empty subscriber list fails on the
   first iteration, before any save, and only if the window is not empty;
   every other run keeps the guarantees of `LegacyGenerated`.
   */
  method GenerateCdrsLegacy(subs: seq<Subscriber>, windowStart: int, windowEnd: int, draws: seq<LegacyDraw>)
    returns (r: Result<LegacyRun, LegacyError>)
    requires forall i :: 0 <= i < |draws| ==> ValidLegacyDraw(subs, draws[i])
    ensures r.Failure? <==> |subs| == 0 && windowStart < windowEnd
    ensures r.Failure? ==> r.error == EmptySubscriberList
    ensures r.Success? ==> LegacyGenerated(subs, windowStart, windowEnd, draws, r.value)
  {
    // The source tests for an empty list inside the loop body, so it fails
    // on the first iteration, before any draw is used, and only if there is one.
    if |subs| == 0 && windowStart < windowEnd {
      return Failure(EmptySubscriberList);
    }
    var s := LegacyProgress(windowStart, map[], [], 0, []);
    var i := 0;
    while s.cursor < windowEnd && i < |draws|
      invariant LegacyLoopInvariant(subs, windowStart, windowEnd, draws, i, s)
      decreases |draws| - i
    {
      LegacyLoopStep(subs, windowStart, windowEnd, draws, i, s);
      s := LegacyIterate(subs, s, draws[i]);
      i := i + 1;
    }
    LegacyLoopDone(subs, windowStart, windowEnd, draws, i, s);
    var completed := windowEnd <= s.cursor;
    var flushes := if completed && s.count % BatchSize != 0 then s.flushes + [s.count] else s.flushes;
    return Success(LegacyRun(s.saved, flushes, s.count, s.busy, s.cursor, i, completed));
  }

  /**
   With a single subscriber both draws pick it, and the call it places to
   itself is still saved.
   */
  lemma SingleSubscriberCallsItself()
    ensures
      var subs := [Subscriber("79991112233")];
      var s := LegacyIterate(subs, LegacyProgress(0, map[], [], 0, []), LegacyDraw(0, 0, true, 60, 3600));
      s.saved == [CDR(Outgoing, "79991112233", "79991112233", 0, 60)] && s.count == 1
  {
  }
}

=== FILE: records.dfy ===
/**
 The persistent entities of the roaming CDR service: subscribers of the
 directory and the call detail records (CDRs) synthesised for them.
 Timestamps are whole seconds on one time line.
 */
module Records {

  /** A subscriber of the directory; only its number (MSISDN) is used. */
  datatype Subscriber = Subscriber(msisdn: string)

  /** Call-type code of an outgoing call. */
  const Outgoing: string := "01"

  /** Call-type code of an incoming call. */
  const Incoming: string := "02"

  /** One call detail record: the caller is `msisdn`, the receiver `otherMsisdn`. */
  datatype CDR = CDR(
    callType: string,
    msisdn: string,
    otherMsisdn: string,
    callStartTime: int,
    callEndTime: int)

  /** True when `number` takes part in the call, on either side. */
  predicate Involves(c: CDR, number: string) {
    c.msisdn == number || c.otherMsisdn == number
  }

  /** True when the two calls have a party in common. */
  predicate SharesParty(a: CDR, b: CDR) {
    Involves(b, a.msisdn) || Involves(b, a.otherMsisdn)
  }

  /** The call's length in seconds (`Duration.between(start, end).getSeconds()`). */
  function CallSeconds(c: CDR): int {
    c.callEndTime - c.callStartTime
  }

  /** A time range whose both bounds belong to it, like a repository `...Between` query. */
  datatype Window = Window(start: int, end: int)

  predicate InWindow(w: Window, t: int) {
    w.start <= t <= w.end
  }

  /**
   Moving the head `e` of the records still to come onto those already
   stored keeps the concatenation of the two.
   */
  lemma Rebase(done: seq<CDR>, pending: seq<CDR>, e: seq<CDR>, rest: seq<CDR>, done': seq<CDR>)
    requires pending == e + rest && done' == done + e
    ensures done + pending == done' + rest
  {
  }
}

=== FILE: repository.dfy ===
/**
 The record store seen by the core: an append-only sequence of CDRs, and the
 three derived finder queries of the CDR repository as pure filters. A
 `...Between(start, end)` query admits both bounds. Results keep the store's
 order.
 */
module Repository {
  import opened Records

  /** The records of `s` that satisfy `p`, in their order in `s`. */
  function Select(s: seq<CDR>, p: CDR -> bool): (r: seq<CDR>)
    ensures |r| <= |s|
    ensures forall x :: x in r <==> x in s && p(x)
  {
    if s == [] then []
    else (if p(s[0]) then [s[0]] else []) + Select(s[1..], p)
  }

  lemma {:induction false} SelectAppend(a: seq<CDR>, b: seq<CDR>, p: CDR -> bool)
    ensures Select(a + b, p) == Select(a, p) + Select(b, p)
  {
    if a != [] {
      assert (a + b)[1..] == a[1..] + b;
      SelectAppend(a[1..], b, p);
    } else {
      assert a + b == b;
    }
  }

  /** The conditions of the three finders, named so that every query over the same bounds uses the same filter. */
  function PlacedBy(msisdn: string, start: int, end: int): CDR -> bool {
    (x: CDR) => x.msisdn == msisdn && start <= x.callStartTime <= end
  }

  function ReceivedBy(msisdn: string, start: int, end: int): CDR -> bool {
    (x: CDR) => x.otherMsisdn == msisdn && start <= x.callStartTime <= end
  }

  function StartedIn(start: int, end: int): CDR -> bool {
    (x: CDR) => start <= x.callStartTime <= end
  }

  /** Filtering a one-record sequence keeps the record exactly when it satisfies the filter. */
  lemma SelectSingle(c: CDR, p: CDR -> bool)
    ensures Select([c], p) == if p(c) then [c] else []
  {
    assert [c][1..] == [];
  }

  /** `findByMsisdnAndCallStartTimeBetween`: calls placed by `msisdn` that started in `[start, end]`. */
  function FindByCaller(store: seq<CDR>, msisdn: string, start: int, end: int): (r: seq<CDR>)
    ensures forall x :: x in r <==> x in store && x.msisdn == msisdn && start <= x.callStartTime <= end
  {
    Select(store, PlacedBy(msisdn, start, end))
  }

  /** `findByOtherMsisdnAndCallStartTimeBetween`: calls received by `msisdn` that started in `[start, end]`. */
  function FindByReceiver(store: seq<CDR>, msisdn: string, start: int, end: int): (r: seq<CDR>)
    ensures forall x :: x in r <==> x in store && x.otherMsisdn == msisdn && start <= x.callStartTime <= end
  {
    Select(store, ReceivedBy(msisdn, start, end))
  }

  /** `findByCallStartTimeBetween`: every call that started in `[start, end]`. */
  function FindInWindow(store: seq<CDR>, start: int, end: int): (r: seq<CDR>)
    ensures forall x :: x in r <==> x in store && start <= x.callStartTime <= end
  {
    Select(store, StartedIn(start, end))
  }

  /**
   The calls of one subscriber in `[start, end]`: those it placed, followed by
   those it received. A record in which the subscriber is on both sides is
   listed twice, once in each part.
   */
  function CdrsForSubscriber(store: seq<CDR>, msisdn: string, start: int, end: int): (r: seq<CDR>)
    ensures forall x :: x in r <==> x in store && Involves(x, msisdn) && start <= x.callStartTime <= end
    ensures |r| == |FindByCaller(store, msisdn, start, end)| + |FindByReceiver(store, msisdn, start, end)|
    ensures r[..|FindByCaller(store, msisdn, start, end)|] == FindByCaller(store, msisdn, start, end)
    ensures r[|FindByCaller(store, msisdn, start, end)|..] == FindByReceiver(store, msisdn, start, end)
  {
    var asCaller := FindByCaller(store, msisdn, start, end);
    var asReceiver := FindByReceiver(store, msisdn, start, end);
    assert (asCaller + asReceiver)[..|asCaller|] == asCaller;
    assert (asCaller + asReceiver)[|asCaller|..] == asReceiver;
    asCaller + asReceiver
  }

  /** A call a subscriber places to itself is reported twice for that subscriber. */
  lemma SelfCallListedTwice(c: CDR, start: int, end: int)
    requires c.msisdn == c.otherMsisdn
    requires start <= c.callStartTime <= end
    ensures CdrsForSubscriber([c], c.msisdn, start, end) == [c, c]
  {
    var asCaller := FindByCaller([c], c.msisdn, start, end);
    var asReceiver := FindByReceiver([c], c.msisdn, start, end);
    assert c in asCaller && |asCaller| <= 1;
    assert c in asReceiver && |asReceiver| <= 1;
  }
}

=== FILE: schedule.dfy ===
/**
 The single-line constraint both generators enforce: a subscriber's entry in
 the busy map holds the end of its latest call, and a new call may start only
 when neither party's entry lies strictly after the start time.
 */
module Schedule {
  import opened Wrappers
  import opened Records

  /** Latest call end per subscriber number. */
  type BusyMap = map<string, int>

  /** `isBusy`: the subscriber has an entry and the time is strictly before it. */
  predicate IsBusy(busy: BusyMap, msisdn: string, t: int) {
    msisdn in busy && t < busy[msisdn]
  }

  /** What one call attempt produces: the record, if any, and the updated busy map. */
  datatype Attempt = Attempt(cdr: Option<CDR>, busy: BusyMap)

  /** Both parties of `c` become busy until the call ends. */
  function Occupy(busy: BusyMap, c: CDR): (busy': BusyMap)
    ensures busy'.Keys == busy.Keys + {c.msisdn, c.otherMsisdn}
    ensures busy'[c.msisdn] == c.callEndTime && busy'[c.otherMsisdn] == c.callEndTime
    ensures forall p :: p in busy && p != c.msisdn && p != c.otherMsisdn ==> busy'[p] == busy[p]
  {
    busy[c.msisdn := c.callEndTime][c.otherMsisdn := c.callEndTime]
  }

  /**
   After a call is admitted, each of its parties is busy at exactly the times
   before the call ends, and every other subscriber is busy exactly when it
   was before; a subscriber without an entry is never busy.
   */
  lemma OccupyBusyUntilEnd(busy: BusyMap, c: CDR, p: string, t: int)
    ensures p == c.msisdn || p == c.otherMsisdn ==> (IsBusy(Occupy(busy, c), p, t) <==> t < c.callEndTime)
    ensures p != c.msisdn && p != c.otherMsisdn ==> (IsBusy(Occupy(busy, c), p, t) <==> IsBusy(busy, p, t))
    ensures p !in busy ==> !IsBusy(busy, p, t)
  {
  }

  /** The busy map remembers, for each party of `c`, an end no earlier than `c`'s. */
  ghost predicate Covers(busy: BusyMap, c: CDR) {
    && c.msisdn in busy && c.callEndTime <= busy[c.msisdn]
    && c.otherMsisdn in busy && c.callEndTime <= busy[c.otherMsisdn]
  }

  ghost predicate CoversAll(busy: BusyMap, log: seq<CDR>) {
    forall i :: 0 <= i < |log| ==> Covers(busy, log[i])
  }

  /** When `a` and `b` share a party, `a` has ended by the time `b` starts. */
  predicate EndsBefore(a: CDR, b: CDR) {
    SharesParty(a, b) ==> a.callEndTime <= b.callStartTime
  }

  /**
   No subscriber is on two calls at once: a later call sharing a party starts
   after the earlier one ends. The quantifier fires only on `EndsBefore` terms,
   so it is not instantiated for every pair of records a proof touches.
   */
  ghost predicate NoOverlap(log: seq<CDR>) {
    forall i, j {:trigger EndsBefore(log[i], log[j])} :: 0 <= i < j < |log| ==> EndsBefore(log[i], log[j])
  }

  /** Admitting a call neither of whose parties is busy at its start keeps the log free of overlaps. */
  lemma AdmitKeepsNoOverlap(busy: BusyMap, log: seq<CDR>, c: CDR)
    requires CoversAll(busy, log) && NoOverlap(log)
    requires !IsBusy(busy, c.msisdn, c.callStartTime) && !IsBusy(busy, c.otherMsisdn, c.callStartTime)
    requires c.callStartTime <= c.callEndTime
    ensures CoversAll(Occupy(busy, c), log + [c])
    ensures NoOverlap(log + [c])
  {
    var log' := log + [c];
    var busy' := Occupy(busy, c);
    forall i | 0 <= i < |log| && SharesParty(log[i], c)
      ensures log[i].callEndTime <= c.callStartTime
    {
      assert Covers(busy, log[i]);
    }
    forall i, j | 0 <= i < j < |log'|
      ensures EndsBefore(log'[i], log'[j])
    {
      if j < |log| {
        assert log'[i] == log[i] && log'[j] == log[j];
        assert EndsBefore(log[i], log[j]);
      } else {
        assert log'[i] == log[i] && log'[j] == c;
      }
    }
    forall i | 0 <= i < |log'|
      ensures Covers(busy', log'[i])
    {
      if i < |log| {
        assert Covers(busy, log[i]);
      }
    }
  }
}

=== FILE: usage.dfy ===
/**
 The usage reports (UDRs) of `UDRController`: per subscriber, the total
 seconds of calls typed incoming (`"02"`) and outgoing (`"01"`) over a time
 window, rendered as `HH:MM:SS`.

 The calendar and the clock are parameters: whether a month text parses,
 the first instant of a month and the one-year window ending now.
 */
module Usage {
  import opened Wrappers
  import opened Records
  import opened Durations
  import opened Repository

  /** A usage report; the field names are those of the report the service returns. */
  datatype UDR = UDR(msisdn: string, incomingCall: CallDuration, outcomingCall: CallDuration)

  /** `IllegalArgumentException` for a malformed month; `EntityNotFoundException` when no record matches. */
  datatype UsageError = InvalidMonth | NotFound(msisdn: string)

  datatype YearMonth = YearMonth(year: int, month: int)

  /** `plusMonths(1)` on the first day of a month: the following month, December rolling into January. */
  function NextMonth(ym: YearMonth): (r: YearMonth)
    ensures 1 <= ym.month <= 12 ==> 1 <= r.month <= 12
    ensures 1 <= ym.month <= 12 ==> r.year * 12 + r.month == ym.year * 12 + ym.month + 1
  {
    if ym.month >= 12 then YearMonth(ym.year + 1, 1) else YearMonth(ym.year, ym.month + 1)
  }

  /**
   The calendar services the controller uses: `parseMonth` is `None` when
   `LocalDateTime.parse(month + "-01T00:00:00")` rejects the text,
   `firstOfMonth` is the first instant of a month, and `yearAgo`/`now` bound
   the default window.
   */
  datatype Calendar = Calendar(
    parseMonth: string -> Option<YearMonth>,
    firstOfMonth: YearMonth -> int,
    yearAgo: int,
    now: int)

  /** From the first instant of the month to the first instant of the next one. */
  function MonthWindow(cal: Calendar, ym: YearMonth): Window {
    Window(cal.firstOfMonth(ym), cal.firstOfMonth(NextMonth(ym)))
  }

  /** The window of a single-subscriber query; `None` when the month text does not parse. */
  function QueryWindow(month: Option<string>, cal: Calendar): (w: Option<Window>)
    ensures month.None? ==> w == Some(Window(cal.yearAgo, cal.now))
    ensures month.Some? ==> (w.None? <==> cal.parseMonth(month.value).None?)
    ensures month.Some? && w.Some? ==> w.value == MonthWindow(cal, cal.parseMonth(month.value).value)
  {
    match month
    case None => Some(Window(cal.yearAgo, cal.now))
    case Some(text) =>
      match cal.parseMonth(text)
      case None => None
      case Some(ym) => Some(MonthWindow(cal, ym))
  }

  /**
   `getTotalCallDuration`: the seconds of the calls of the given type. It
   is never negative when no call ends before it starts, and zero when no
   call has the type.
   */
  function TotalCallDuration(cdrs: seq<CDR>, callType: string): (total: int)
    ensures (forall i :: 0 <= i < |cdrs| ==> cdrs[i].callStartTime <= cdrs[i].callEndTime) ==> total >= 0
    ensures (forall i :: 0 <= i < |cdrs| ==> cdrs[i].callType != callType) ==> total == 0
  {
    if cdrs == [] then 0
    else
      assert forall i :: 0 <= i < |cdrs| - 1 ==> cdrs[1..][i] == cdrs[i + 1];
      (if cdrs[0].callType == callType then CallSeconds(cdrs[0]) else 0) + TotalCallDuration(cdrs[1..], callType)
  }

  /** The total over a concatenation is the sum of the totals. */
  lemma {:induction false} TotalCallDurationAppend(a: seq<CDR>, b: seq<CDR>, callType: string)
    ensures TotalCallDuration(a + b, callType) == TotalCallDuration(a, callType) + TotalCallDuration(b, callType)
  {
    if a == [] {
      assert a + b == b;
    } else {
      assert (a + b)[1..] == a[1..] + b;
      TotalCallDurationAppend(a[1..], b, callType);
    }
  }

  /** The total over one call: its length if it has the type, zero otherwise. */
  lemma TotalCallDurationSingle(c: CDR, callType: string)
    ensures TotalCallDuration([c], callType) == if c.callType == callType then CallSeconds(c) else 0
  {
    assert [c][1..] == [];
  }

  /**
   `createUDR`: the report names the given number, its incoming field reads
   back as the total of the `"02"` calls and its outgoing field as the total
   of the `"01"` calls.
   */
  function CreateUdr(msisdn: string, cdrs: seq<CDR>): (u: UDR)
    ensures u.msisdn == msisdn
    ensures ParseDuration(u.incomingCall.totalTime) == Some(TotalCallDuration(cdrs, Incoming))
    ensures ParseDuration(u.outcomingCall.totalTime) == Some(TotalCallDuration(cdrs, Outgoing))
  {
    UDR(msisdn,
        CallDurationOf(TotalCallDuration(cdrs, Incoming)),
        CallDurationOf(TotalCallDuration(cdrs, Outgoing)))
  }

  /** A call of any other type counts toward neither direction: the report is the same without it. */
  lemma CreateUdrIgnoresOtherTypes(msisdn: string, a: seq<CDR>, c: CDR, b: seq<CDR>)
    requires c.callType != Incoming && c.callType != Outgoing
    ensures CreateUdr(msisdn, a + [c] + b) == CreateUdr(msisdn, a + b)
  {
    forall t | t == Incoming || t == Outgoing
      ensures TotalCallDuration(a + [c] + b, t) == TotalCallDuration(a + b, t)
    {
      TotalCallDurationAppend(a + [c], b, t);
      TotalCallDurationAppend(a, [c], t);
      TotalCallDurationAppend(a, b, t);
      TotalCallDurationSingle(c, t);
    }
  }

  /**
   `getUDR`. A month text that does not parse fails with `InvalidMonth`
   whatever the store holds, i.e. before any query. Otherwise the calls
   the subscriber placed in the window followed by those it received are
   gathered; when there are none the query fails with `NotFound`, and
   otherwise the report names the subscriber and totals exactly those calls.
   */
  function GetUdr(store: seq<CDR>, msisdn: string, month: Option<string>, cal: Calendar): (r: Result<UDR, UsageError>)
    ensures QueryWindow(month, cal).None? <==> r == Failure(InvalidMonth)
    ensures r.Failure? ==> r.error == InvalidMonth || r.error == NotFound(msisdn)
    ensures QueryWindow(month, cal).Some? ==>
      var w := QueryWindow(month, cal).value;
      (r == Failure(NotFound(msisdn)) <==>
         forall x :: x in store && InWindow(w, x.callStartTime) ==> !Involves(x, msisdn))
    ensures r.Success? ==>
      var w := QueryWindow(month, cal).value;
      var hits := CdrsForSubscriber(store, msisdn, w.start, w.end);
      && r.value.msisdn == msisdn
      && ParseDuration(r.value.incomingCall.totalTime) == Some(TotalCallDuration(hits, Incoming))
      && ParseDuration(r.value.outcomingCall.totalTime) == Some(TotalCallDuration(hits, Outgoing))
  {
    match QueryWindow(month, cal)
    case None => Failure(InvalidMonth)
    case Some(w) =>
      var all := CdrsForSubscriber(store, msisdn, w.start, w.end);
      if all == [] then Failure(NotFound(msisdn))
      else Success(CreateUdr(msisdn, all))
  }

  /**
   Whenever the window forms, the totals a report is built from are the
   caller-side total plus the receiver-side total, each direction counted
   by the record's type.
   */
  lemma GetUdrSumsBothSides(store: seq<CDR>, msisdn: string, month: Option<string>, cal: Calendar, callType: string)
    requires QueryWindow(month, cal).Some?
    ensures
      var w := QueryWindow(month, cal).value;
      TotalCallDuration(CdrsForSubscriber(store, msisdn, w.start, w.end), callType)
        == TotalCallDuration(FindByCaller(store, msisdn, w.start, w.end), callType)
         + TotalCallDuration(FindByReceiver(store, msisdn, w.start, w.end), callType)
  {
    var w := QueryWindow(month, cal).value;
    TotalCallDurationAppend(FindByCaller(store, msisdn, w.start, w.end), FindByReceiver(store, msisdn, w.start, w.end), callType);
  }

  /** The calls of `a` in the two-call example below: the one it placed, then the one it received. */
  lemma ExampleHits(a: string, b: string, out: CDR, inc: CDR, start: int, end: int)
    requires a != b
    requires out == CDR(Outgoing, a, b, 100, 400) && inc == CDR(Incoming, b, a, 500, 620)
    requires start <= 100 && 1000 <= end
    ensures FindByCaller([out, inc], a, start, end) == [out]
    ensures FindByReceiver([out, inc], a, start, end) == [inc]
  {
    assert [out, inc] == [out] + [inc];
    var placed := PlacedBy(a, start, end);
    var received := ReceivedBy(a, start, end);
    assert placed(out) && !placed(inc);
    assert !received(out) && received(inc);
    SelectAppend([out], [inc], placed);
    SelectSingle(out, placed);
    SelectSingle(inc, placed);
    SelectAppend([out], [inc], received);
    SelectSingle(out, received);
    SelectSingle(inc, received);
  }

  /**
   A subscriber that placed a 300-second outgoing call and received a
   120-second incoming one in the window is reported with 300 outgoing and
   120 incoming seconds.
   */
  lemma GetUdrExample(cal: Calendar, a: string, b: string)
    requires a != b
    requires cal.yearAgo <= 100 && 1000 <= cal.now
    ensures
      var store := [CDR(Outgoing, a, b, 100, 400), CDR(Incoming, b, a, 500, 620)];
      var r := GetUdr(store, a, None, cal);
      && r.Success?
      && ParseDuration(r.value.outcomingCall.totalTime) == Some(300)
      && ParseDuration(r.value.incomingCall.totalTime) == Some(120)
  {
    var out := CDR(Outgoing, a, b, 100, 400);
    var inc := CDR(Incoming, b, a, 500, 620);
    var hits := CdrsForSubscriber([out, inc], a, cal.yearAgo, cal.now);
    assert hits == [out] + [inc] by {
      ExampleHits(a, b, out, inc, cal.yearAgo, cal.now);
    }
    assert TotalCallDuration(hits, Outgoing) == 300 by {
      TotalCallDurationAppend([out], [inc], Outgoing);
      TotalCallDurationSingle(out, Outgoing);
      TotalCallDurationSingle(inc, Outgoing);
    }
    assert TotalCallDuration(hits, Incoming) == 120 by {
      TotalCallDurationAppend([out], [inc], Incoming);
      TotalCallDurationSingle(out, Incoming);
      TotalCallDurationSingle(inc, Incoming);
    }
  }

  /**
   A call a subscriber places to itself, as the older synthesizer can
   produce, is counted twice in that subscriber's report.
   */
  lemma SelfCallCountedTwice(c: CDR, cal: Calendar)
    requires c.msisdn == c.otherMsisdn && c.callType == Outgoing
    requires cal.yearAgo <= c.callStartTime <= cal.now
    ensures
      var r := GetUdr([c], c.msisdn, None, cal);
      && r.Success?
      && ParseDuration(r.value.outcomingCall.totalTime) == Some(2 * CallSeconds(c))
  {
    var hits := CdrsForSubscriber([c], c.msisdn, cal.yearAgo, cal.now);
    assert hits == [c] + [c] by {
      SelfCallListedTwice(c, cal.yearAgo, cal.now);
    }
    assert TotalCallDuration(hits, Outgoing) == 2 * CallSeconds(c) by {
      TotalCallDurationAppend([c], [c], Outgoing);
      TotalCallDurationSingle(c, Outgoing);
    }
  }

  /** The calls of `records` placed by `msisdn`, in their order. */
  function GroupOf(records: seq<CDR>, msisdn: string): (g: seq<CDR>)
    ensures forall x :: x in g <==> x in records && x.msisdn == msisdn
  {
    Select(records, (x: CDR) => x.msisdn == msisdn)
  }

  /** The caller numbers of `records`. */
  function Callers(records: seq<CDR>): set<string> {
    set x | x in records :: x.msisdn
  }

  /** The report of one caller group, named after the first record of the group. */
  function GroupReport(records: seq<CDR>, m: string): (u: UDR)
    requires m in Callers(records)
    ensures u == CreateUdr(m, GroupOf(records, m))
  {
    var g := GroupOf(records, m);
    GroupNonEmpty(records, m);
    assert g[0] in g;
    CreateUdr(g[0].msisdn, g)
  }

  lemma GroupNonEmpty(records: seq<CDR>, m: string)
    requires m in Callers(records)
    ensures GroupOf(records, m) != []
  {
    var x :| x in records && x.msisdn == m;
    assert x in GroupOf(records, m);
  }

  /** The caller numbers of the calls in a window of the store. */
  lemma CallersInWindow(store: seq<CDR>, w: Window)
    ensures Callers(FindInWindow(store, w.start, w.end)) == (set x | x in store && InWindow(w, x.callStartTime) :: x.msisdn)
  {
    var records := FindInWindow(store, w.start, w.end);
    forall m | m in Callers(records)
      ensures m in (set x | x in store && InWindow(w, x.callStartTime) :: x.msisdn)
    {
      var x :| x in records && x.msisdn == m;
      assert x in store && InWindow(w, x.callStartTime);
    }
  }

  /**
   The `groupingBy` collector: one report per caller number of `records`,
   each naming its key and totalling that caller's group only.
   */
  function ReportsByCaller(records: seq<CDR>): (reports: map<string, UDR>)
    ensures forall m :: m in reports ==> m in Callers(records) && reports[m] == CreateUdr(m, GroupOf(records, m))
  {
    map m | m in Callers(records) :: GroupReport(records, m)
  }

  /** Every caller number of `records` has a report. */
  lemma ReportsByCallerKeys(records: seq<CDR>)
    ensures ReportsByCaller(records).Keys == Callers(records)
  {
  }

  /**
   `getAllUDRs`. A month text that does not parse fails with
   `InvalidMonth`; nothing else fails. Otherwise the calls started in the
   month are grouped by caller: the keys are exactly the caller numbers of
   those calls, each report names its key, and its totals cover that group
   only, counted by each record's own type.
   */
  function GetAllUdrs(store: seq<CDR>, month: string, cal: Calendar): (r: Result<map<string, UDR>, UsageError>)
    ensures cal.parseMonth(month).None? <==> r.Failure?
    ensures r.Failure? ==> r.error == InvalidMonth
    ensures r.Success? ==>
      var w := MonthWindow(cal, cal.parseMonth(month).value);
      var records := FindInWindow(store, w.start, w.end);
      && r.value.Keys == (set x | x in store && InWindow(w, x.callStartTime) :: x.msisdn)
      && forall m :: m in r.value ==>
           && r.value[m].msisdn == m
           && ParseDuration(r.value[m].incomingCall.totalTime) == Some(TotalCallDuration(GroupOf(records, m), Incoming))
           && ParseDuration(r.value[m].outcomingCall.totalTime) == Some(TotalCallDuration(GroupOf(records, m), Outgoing))
  {
    match cal.parseMonth(month)
    case None => Failure(InvalidMonth)
    case Some(ym) =>
      var w := MonthWindow(cal, ym);
      CallersInWindow(store, w);
      ReportsByCallerKeys(FindInWindow(store, w.start, w.end));
      Success(ReportsByCaller(FindInWindow(store, w.start, w.end)))
  }

  /** A stored call starting inside a parsed month's window is reported for its caller in that month. */
  lemma CountedInMonth(store: seq<CDR>, cal: Calendar, month: string, ym: YearMonth, c: CDR)
    requires cal.parseMonth(month) == Some(ym)
    requires c in store && InWindow(MonthWindow(cal, ym), c.callStartTime)
    ensures
      var r := GetAllUdrs(store, month, cal);
      var w := MonthWindow(cal, ym);
      && r.Success? && c.msisdn in r.value
      && c in GroupOf(FindInWindow(store, w.start, w.end), c.msisdn)
  {
    var w := MonthWindow(cal, ym);
    assert c.msisdn in (set x | x in store && InWindow(w, x.callStartTime) :: x.msisdn);
    assert c in FindInWindow(store, w.start, w.end);
  }

  /**
   Month windows include both bounds, so a call starting exactly at the first
   instant of the next month is reported for its caller in both months.
   */
  lemma MonthBoundaryCountedInBothMonths(store: seq<CDR>, cal: Calendar, month: string, nextMonth: string, ym: YearMonth, c: CDR)
    requires cal.parseMonth(month) == Some(ym) && cal.parseMonth(nextMonth) == Some(NextMonth(ym))
    requires c in store && c.callStartTime == cal.firstOfMonth(NextMonth(ym))
    requires cal.firstOfMonth(ym) <= c.callStartTime <= cal.firstOfMonth(NextMonth(NextMonth(ym)))
    ensures
      var r1 := GetAllUdrs(store, month, cal);
      var r2 := GetAllUdrs(store, nextMonth, cal);
      && r1.Success? && r2.Success?
      && c.msisdn in r1.value && c.msisdn in r2.value
      && c in GroupOf(FindInWindow(store, cal.firstOfMonth(ym), cal.firstOfMonth(NextMonth(ym))), c.msisdn)
      && c in GroupOf(FindInWindow(store, cal.firstOfMonth(NextMonth(ym)), cal.firstOfMonth(NextMonth(NextMonth(ym)))), c.msisdn)
  {
    CountedInMonth(store, cal, month, ym, c);
    CountedInMonth(store, cal, nextMonth, NextMonth(ym), c);
  }

  /**
   Grouping is by the stored caller field and counting by the record's own
   type: an incoming-typed call from `a` to `b` makes an entry for `a` only,
   and counts as `a`'s incoming time.
   */
  lemma GetAllUdrsGroupsByCaller(cal: Calendar, month: string, ym: YearMonth, a: string, b: string)
    requires a != b
    requires cal.parseMonth(month) == Some(ym)
    requires MonthWindow(cal, ym).start <= 0 && 60 <= MonthWindow(cal, ym).end
    ensures
      var r := GetAllUdrs([CDR(Incoming, a, b, 0, 60)], month, cal);
      && r.Success?
      && r.value.Keys == {a}
      && ParseDuration(r.value[a].incomingCall.totalTime) == Some(60)
      && ParseDuration(r.value[a].outcomingCall.totalTime) == Some(0)
  {
    var c := CDR(Incoming, a, b, 0, 60);
    var w := MonthWindow(cal, ym);
    var records := FindInWindow([c], w.start, w.end);
    assert records == [c] by {
      SelectSingle(c, StartedIn(w.start, w.end));
    }
    assert (set x | x in [c] && InWindow(w, x.callStartTime) :: x.msisdn) == {a} by {
      assert c in [c];
    }
    assert GroupOf(records, a) == [c] by {
      assert [c][1..] == [];
    }
    assert TotalCallDuration([c], Incoming) == 60 && TotalCallDuration([c], Outgoing) == 0 by {
      TotalCallDurationSingle(c, Incoming);
      TotalCallDurationSingle(c, Outgoing);
    }
  }
}

=== FILE: wrappers.dfy ===
/** Failure-aware result types shared by the whole model. */
module Wrappers {

  /** A value that may be absent (a Java `null` or an empty parse). */
  datatype Option<+T> = None | Some(value: T)

  /** The outcome of an operation that either yields a value or raises an error. */
  datatype Result<+T, +E> = Success(value: T) | Failure(error: E)
}
